=== FILE: README.md ===
# Eksportal session-token lifecycle, modelled in Dafny

Eksportal's browser client keeps a short-lived bearer token in
`localStorage`. `AuthManager` (`src/lib/auth.ts`) manages it. It refreshes
the token, and it makes sure only one refresh request is in flight however
many callers ask. It wraps API calls so that a 401 or 403 triggers that
refresh and one replay of the call. It checks the token's `exp` claim to
refresh early. When a refresh is refused, it logs the user out. Around it,
several pages read and write the same storage slots:

- the login form and the registration form (with its password checks),
- the admin page's access gate and its price-input validation,
- the navigation bar's profile fetch, its own logout and its link predicates,
- the toast queue.

This project models all of that as a functional state machine. A
`Session.State` value holds:

- the storage slots `token`, `refresh_token` and `is_staff`,
- an in-flight flag standing for the pending refresh promise,
- the log of `tokenRefreshed` / `userLoggedOut` window events,
- the last navigation target,
- a count of refresh requests sent.

Every await point is a separate step. `Interleaving` runs any number of
`apiRequest` calls, the shared refresh and proactive checks as one sequence
of steps. In that model the project proves that:

- there is at most one refresh request per pending handle,
- every call sends at most one replay,
- N callers refused at once share one outcome.

Network replies are inputs: a throw, or a status plus the decoded body.

Files, one module each:

- `wrappers.dfy`: `Option`.
- `js_string.dfy`: JavaScript truthiness, `||` defaulting, `trim` over the
  ECMAScript whitespace set, and `length` in UTF-16 code units.
- `js_number.dfy`: `parseInt` with no radix: leading whitespace, sign,
  `0x` prefix, and the longest digit prefix.
- `http.dfy`: reply shapes.
- `session.dfy`: the state and `logout`.
- `refresh.dfy`: `refreshToken` / `performRefresh`.
- `api_request.dfy`: `apiRequest` as per-call steps.
- `expiry.dfy`: `shouldRefreshToken` and `checkAndRefresh`.
- `interleaving.dfy`: many callers.
- `login.dfy`, `register.dfy`, `admin.dfy`, `navbar.dfy`, `profile.dfy`,
  `toast.dfy`: the pages.
- `journeys.dfy`: properties that span more than one page.

The model follows the code where the code departs from the intended design
of a single-flight coordinator:

- The refresh request sends the access token, never `refresh_token`
  (`Refresh.RefreshRequestIgnoresRefreshToken`).
- `logout` clears only `token`. `refresh_token` and the cached `is_staff`
  both survive it (`Journeys.StaleStaffFlagAfterCoordinatorLogout`).
- A transient failure of a refresh that an `apiRequest` call is waiting on
  also ends the session, because `apiRequest` logs out whenever the refresh
  yields null. A proactive refresh that fails transiently with no call
  waiting leaves the session alone (`Refresh.RefreshTransient`).
- A refused refresh (401/403) with N waiting calls dispatches
  `userLoggedOut` N + 1 times, not once (`Interleaving.ManyCallersOneRefresh`).
- With no token stored, the first request carries an empty `Authorization`
  header rather than none.

## Model

| member | source | states |
|---|---|---|
| Session.Logout | src/lib/auth.ts:58-63 | logout removes the token and no other slot, appends one `userLoggedOut`, and navigates to `/login` |
| Session.LogoutStorageIdempotent | src/lib/auth.ts:58-63 | a second logout leaves storage and navigation as the first did; only the event log grows |
| JsString.FirstTruthy | src/lib/auth.ts:35 | `a \|\| b` is truthy exactly when one operand is, and then it is the first truthy operand |
| Refresh.Classify | src/lib/auth.ts:33-55 | only a 2xx carrying a non-empty token renews (nested `data.access` preferred); exactly 401 and 403 reject; everything else is transient |
| Refresh.RequestRefresh | src/lib/auth.ts:5-31 | a caller arriving while a refresh is pending joins it with no new request; otherwise exactly one request is sent when a token is stored, and none when it is not; the request carries `Bearer <stored access token>` and the JSON content type; storage and events are untouched |
| Refresh.RefreshRequestIgnoresRefreshToken | src/lib/auth.ts:20-31 | sessions that differ only in `refresh_token` send the same refresh request, so the refresh token is never what is sent |
| Refresh.SettleRefresh | src/lib/auth.ts:12-55 | settling clears the handle whatever the outcome; a renewal writes exactly the new token and one `tokenRefreshed`; a rejection logs out; a transient failure changes nothing else |
| Refresh.RefreshAlone | src/lib/auth.ts:5-56 | a lone `refreshToken` always ends with the handle cleared and at most one request counted (one exactly when it created the handle with a token stored); a non-null result is non-empty and is the stored token; a null result adds at most one `userLoggedOut` |
| Refresh.HandleClearedAfterRefresh | src/lib/auth.ts:12-15 | after a refresh, whatever its outcome, no refresh is pending |
| Refresh.RefreshWithoutToken | src/lib/auth.ts:20-23 | with no token, refresh returns null, sends nothing and changes nothing |
| Refresh.RefreshRenews | src/lib/auth.ts:33-43 | a renewing reply stores, announces and returns exactly the new token, after one request |
| Refresh.RefreshTransient | src/lib/auth.ts:44-55 | a transient failure returns null and leaves storage, events and navigation as they were |
| Refresh.RejectedRefreshEndsRefreshing | src/lib/auth.ts:45-48 | after a refused refresh the next refresh sends no request |
| ApiRequest.Bearer | src/lib/auth.ts:73 | the bearer value is `Bearer <token>` for a non-empty token and empty otherwise |
| ApiRequest.FirstHeaders | src/lib/auth.ts:67-76 | the first request carries the JSON content type and the bearer, each overridden by a caller header of the same name, plus every caller header |
| ApiRequest.Begin | src/lib/auth.ts:67-78 | a new call has sent exactly one request, carrying the first headers built from the stored token, and awaits its reply |
| ApiRequest.RetryHeaders | src/lib/auth.ts:86-89 | the replay carries the new bearer even over a caller's own, and every other header unchanged |
| ApiRequest.OnFirstReply | src/lib/auth.ts:78-82 | a throwing request rejects the call with the session unchanged; a status other than 401/403 is returned with the session unchanged; 401/403 waits on a refresh, touching only the pending handle and the refresh count, or logs out and fails at once when there is no token and none pending |
| ApiRequest.Resume | src/lib/auth.ts:84-95 | a waiting call given a token replays once, with exactly the new bearer added to what it sent; given null it fails with "Authentication failed"; a call that is not waiting is left alone |
| ApiRequest.OnRefreshResult | src/lib/auth.ts:82-95 | the session changes only when a waiting call gets null, and then by exactly one logout |
| ApiRequest.OnRetryReply | src/lib/auth.ts:90-98 | the replay's reply is returned whatever its status; a throwing replay rejects the call |
| ApiRequest.AloneTerminates | src/lib/auth.ts:66-99 | a call always ends returned, rejected by a throw, or failed, after at most two requests |
| ApiRequest.ApiRequestAlone | src/lib/auth.ts:66-99 | a lone call ends returned, errored or failed; its first request carries the first headers; a second request is sent only after a 401/403; any other first reply leaves the session untouched |
| ApiRequest.FirstRequestBearer | src/lib/auth.ts:67-76 | the first request's Authorization is the stored token's bearer, or empty with no token |
| ApiRequest.PassThrough | src/lib/auth.ts:78-98 | a non-401/403 reply comes back unchanged, with no refresh, no replay and no session change |
| ApiRequest.ThrowPassesThrough | src/lib/auth.ts:78 | a first request that throws rejects the call after one request, with no refresh, no logout and no session change |
| ApiRequest.ReplayOnceAfterRenewal | src/lib/auth.ts:81-90 | after a renewal the call replays exactly once with the new bearer and returns the replay's status, even 401/403; a throwing replay rejects the call and keeps the renewal |
| ApiRequest.FailWhenRefreshYieldsNull | src/lib/auth.ts:91-95 | when the refresh yields null the call fails and logs out: twice for a refusal, once for a transient failure |
| ApiRequest.NoTokenNoRefreshRequest | src/lib/auth.ts:81-95 | with no token a 401/403 sends no refresh request and fails with a single logout |
| Interleaving.WakeAll | src/lib/auth.ts:82-95 | settling resumes every waiting call with the one result; null logs out once per waiting call |
| Interleaving.Apply | src/lib/auth.ts:5-99 | one step of the environment: only a new call adds to the calls, and the refresh count never goes down |
| Interleaving.Run | src/lib/auth.ts:5-99 | a sequence of steps adds exactly one call per start step, drops none, and never lowers the refresh count |
| Interleaving.StepOnlyAppends | src/lib/auth.ts:78-90 | a step only appends to what each call has sent |
| Interleaving.RunOnlyAppends | src/lib/auth.ts:78-90 | in any interleaving, no request a call has sent is taken back or rewritten |
| Interleaving.StepPreservesInvariant | src/lib/auth.ts:78-96 | every step keeps each call at one request, or two once replaying, and no call waits without a pending refresh |
| Interleaving.AtMostOneReplay | src/lib/auth.ts:81-96 | in every interleaving each call sends at most two requests |
| Interleaving.StepRefreshCalls | src/lib/auth.ts:5-11 | a step sends at most one refresh request, and only when it creates the handle |
| Interleaving.NoSecondRefreshWhilePending | src/lib/auth.ts:5-11 | while a refresh is pending, no interleaving of other steps sends another refresh request |
| Interleaving.JoinOneMore | src/lib/auth.ts:5-11 | one more 401/403 joins the pending refresh, or starts it when none is pending, and changes no other call |
| Interleaving.RejectionsJoinOneRefresh | src/lib/auth.ts:5-11 | refusing N calls one by one creates one pending refresh that all N wait on |
| Interleaving.SettleShared | src/lib/auth.ts:12-55 | once every call waits on the one pending refresh, its reply gives all of them the same outcome, with one request in all |
| Interleaving.ManyCallersOneRefresh | src/lib/auth.ts:5-15 | N calls refused together cause exactly one refresh request and all share its outcome; a refusal yields N + 1 `userLoggedOut` |
| Expiry.MiddleSegment | src/lib/auth.ts:104 | `split('.')[1]` is absent exactly when there is no dot, and has no dot itself |
| Expiry.MiddleSegmentOfJoin | src/lib/auth.ts:104 | splitting `head.payload.rest` yields `payload` |
| Expiry.DueIffUnderThreshold | src/lib/auth.ts:102-110 | a token with an expiry is due exactly when less than 15 minutes remain; exactly 15 minutes is not due |
| Expiry.ClaimsDue | src/lib/auth.ts:104-110 | decoded claims are due when they cannot be decoded, never when `exp` is not numeric, and otherwise exactly when now is past the expiry minus 15 minutes |
| Expiry.ShouldRefreshToken | src/lib/auth.ts:102-114 | a token without a dot or whose payload does not decode is due; a non-numeric `exp` is not; otherwise due exactly when now is past the expiry minus 15 minutes |
| Expiry.TenAndTwentyMinutes | src/lib/auth.ts:105-110 | ten minutes left is due, twenty is not |
| Expiry.DueIsMonotoneInTime | src/lib/auth.ts:105-110 | once due, a token stays due |
| Expiry.FailSafeVerdicts | src/lib/auth.ts:104-113 | no dot or a decode failure is due; a payload without a numeric `exp` is never due |
| Expiry.CheckAndRefresh | src/lib/auth.ts:118-123 | the proactive check sends a refresh request only with a stored, due token and no pending refresh, and never touches storage |
| JsString.Trim | src/app/admin/page.tsx:119 | `trim` returns the infix left after removing whitespace at both ends: what it drops is all whitespace, what it keeps has none at either end, and it is empty exactly when the input is all whitespace |
| JsString.TrimStartSkips | src/app/admin/page.tsx:124 | the whitespace `parseInt` skips is exactly the leading whitespace |
| JsString.TrimIdempotent | src/app/admin/page.tsx:119 | trimming twice is trimming once |
| JsString.Utf16Length | src/app/register/page.tsx:27 | `length` counts code units: between one and two per character, equal to the character count exactly when all lie in the Basic Multilingual Plane |
| JsString.Utf16LengthAppend | src/app/register/page.tsx:27 | code units add up over concatenation |
| JsNumber.DigitPrefix | src/app/admin/page.tsx:124 | the longest digit prefix: all digits, and followed by a non-digit or the end |
| JsNumber.ParseInt | src/app/admin/page.tsx:124 | `parseInt` is NaN exactly when no digit follows the whitespace, sign and radix prefix |
| JsNumber.DigitsValueOfDecimalString | src/app/admin/page.tsx:124 | reading a decimal numeral gives back its number |
| JsNumber.ParseIntReadsLeadingDigits | src/app/admin/page.tsx:124 | whitespace, a digit run (leading zeros allowed) and non-digit trailing text parse as the run's value, unless the run is a lone 0 before `x`/`X` |
| JsNumber.ParseIntTwoDigits | src/app/admin/page.tsx:124 | two digits, then a non-digit or the end, parse as the two-digit number |
| JsNumber.ParseIntReadsLeadingNumeral | src/app/admin/page.tsx:124 | whitespace, a positive numeral and non-digit trailing text parse as that number |
| JsNumber.ParseIntDecimalRoundTrip | src/app/admin/page.tsx:124 | `parseInt` inverts writing a number in decimal |
| JsNumber.ParseIntNegative | src/app/admin/page.tsx:124-125 | a leading minus gives the negated value, which the price check then rejects |
| JsNumber.ParseIntNaN | src/app/admin/page.tsx:124-125 | a first non-blank character that is neither sign nor digit gives NaN |
| JsNumber.ParseIntTwelveAbc | src/app/admin/page.tsx:124 | "12abc" parses as 12 |
| JsNumber.ParseIntLeadingZero | src/app/admin/page.tsx:124 | "012abc" parses as 12: a leading zero is a decimal digit |
| JsNumber.ParseIntHexPrefix | src/app/admin/page.tsx:124 | "0x1A" parses as 26 |
| Register.ContainsInRange | src/app/register/page.tsx:28-30 | true exactly when some character lies in the range |
| Register.CheckPassword | src/app/register/page.tsx:26-31 | each check holds exactly when its condition does: 8 code units, an ASCII upper-case letter, lower-case letter, digit |
| Register.PasswordValidIff | src/app/register/page.tsx:33 | a password is valid exactly when all four checks hold |
| Register.IsPasswordValid | src/app/register/page.tsx:33 | a valid password has at least 8 code units, hence at least 4 characters, and contains a digit |
| Register.DoPasswordsMatch | src/app/register/page.tsx:34 | an empty password or confirmation never matches, and matching passwords are valid or invalid together |
| Register.PasswordsMatchSymmetric | src/app/register/page.tsx:34 | swapping password and confirmation does not change the verdict; a non-empty password matches itself |
| Register.SevenBmpCharactersTooShort | src/app/register/page.tsx:27 | seven ordinary characters never pass |
| Register.AstralCharactersCountTwice | src/app/register/page.tsx:27 | six characters, three outside the Basic Multilingual Plane, pass the length check |
| Register.RegisterSubmit | src/app/register/page.tsx:43-89 | no request and no change unless valid and confirmed; on 2xx both tokens are cleared and only those in the reply stored, going home or to login; on failure storage is untouched and the error is the message or a default |
| Login.LoginSubmit | src/app/login/page.tsx:29-72 | on 2xx the token is replaced (or left empty with an error), `refresh_token` only overwritten when one is sent, navigation home only with a token; on failure storage is untouched and the error chosen as written |
| Login.LoginYieldsToken | src/app/login/page.tsx:52-59 | a successful login leaves a usable token |
| Profile.Normalize | src/app/admin/page.tsx:72-77 | each field is defaulted on its own: an absent `data`, or an absent `name`, `email` or `saldo`, gives "", "" or 0; a present field is kept; staff only when `is_staff` is true |
| Profile.NormalizeRaw | src/app/admin/page.tsx:72-77 | a body carrying every field of a profile normalises back to that profile |
| Profile.NormalizeFieldDefaults | src/app/admin/page.tsx:72-77 | dropping one field from a full body sets that field to its default and changes no other; the bar's own normalisation at src/components/FloatingNavbar.tsx:39-43 has the same defaults for the fields it reads |
| Profile.StaffFlag | src/app/admin/page.tsx:80 | the cached flag is "true" or "false" and "true" exactly for staff |
| Admin.CheckAuth | src/app/admin/page.tsx:45-99 | no token goes to login; a cached "false" goes home; a cached "true" admits without request; otherwise the profile is requested: a 2xx reply caches the normalised `is_staff` as "true"/"false", changes no other key, admits staff and sends others home; a non-2xx or thrown request goes to login |
| Admin.FailedProfileGoesToLogin | src/app/admin/page.tsx:90-96 | a profile request that throws, or returns a status that is neither 2xx nor 401/403, sends the page to login with storage untouched |
| Admin.NonStaffGoesHome | src/app/admin/page.tsx:66-86 | a 2xx profile of a non-staff user caches "false", refuses entry and goes home |
| Admin.ReturnedCallKeepsToken | src/app/admin/page.tsx:68 | a profile request that comes back leaves a token stored |
| Admin.GateCachesVerdict | src/app/admin/page.tsx:54-89 | after a 2xx profile the next visit decides the same way without a request |
| Admin.ValidatePricing | src/app/admin/page.tsx:118-139 | blank fields are refused first; then NaN or non-positive prices; otherwise the parsed price and trimmed description are sent |
| Admin.PricingReadsLeadingNumeral | src/app/admin/page.tsx:124-139 | a price of whitespace, a positive numeral and trailing text submits that number |
| Navbar.FetchProfile | src/components/FloatingNavbar.tsx:25-54 | without a token or a 2xx nothing changes; a 2xx shows the normalised profile, logs in, and caches only the staff flag, leaving the refresh handle and count alone |
| Navbar.OpenLogoutConfirm | src/components/FloatingNavbar.tsx:78-80 | the confirmation opens and nothing else changes |
| Navbar.HandleLogout | src/components/FloatingNavbar.tsx:69-76 | removes token and staff flag, keeps `refresh_token`, returns the bar to its mounted state (no profile, closed dialog) and goes to login |
| Navbar.LinksAfterFetch | src/components/FloatingNavbar.tsx:145-157 | after a 2xx profile the API Keys link shows, and the Admin link shows exactly when the cached flag is "true" |
| Navbar.ShowApiKeysLink | src/components/FloatingNavbar.tsx:145-150 | on a consistent bar the API Keys link shows only with a profile |
| Navbar.ShowAdminLink | src/components/FloatingNavbar.tsx:152-157 | the Admin link shows only with the API Keys link and a staff profile, and never without a staff profile |
| Navbar.AdminLinkNeedsApiKeysLink | src/components/FloatingNavbar.tsx:145-157 | the Admin link never shows without the API Keys link |
| Toasts.ShowToast | src/components/ui/toast.tsx:57-60 | one entry is appended at the end, the rest untouched; the kind defaults to info |
| Toasts.RemoveToast | src/components/ui/toast.tsx:62-64 | exactly the entries with another id remain |
| Toasts.RemoveKeepsCounts | src/components/ui/toast.tsx:62-64 | each surviving entry keeps its multiplicity; none with the id remains |
| Toasts.RemoveAbsentIsNoOp | src/components/ui/toast.tsx:63 | removing an absent id changes nothing |
| Toasts.RemoveDistributes | src/components/ui/toast.tsx:63 | removal works entry by entry, so survivors keep their order |
| Toasts.RemoveIdempotent | src/components/ui/toast.tsx:63 | removing twice is removing once |
| Toasts.RemoveUndoesShow | src/components/ui/toast.tsx:57-64 | removing a just-shown toast under a fresh id restores the queue |
| Toasts.BgColorDistinct | src/components/ui/toast.tsx:23-28 | each kind has its own colour; the default kind is blue |
| Toasts.BgColor | src/components/ui/toast.tsx:23-28 | every kind maps to a Tailwind background class, blue exactly for the info kind |
| Journeys.LogoutLocksAdmin | src/app/admin/page.tsx:49-52 | after either logout the admin gate goes to login without a request |
| Journeys.NavbarProfileDecidesAdmin | src/app/admin/page.tsx:54-64 | the flag the bar caches decides the gate without a request, agreeing with the Admin link |
| Journeys.StaleStaffFlagAfterCoordinatorLogout | src/lib/auth.ts:58-63 | the coordinator's logout keeps `is_staff`, so the next login passes the admin gate on the old flag |
| Journeys.RefreshTokenAfterLoginAndRegister | src/app/login/page.tsx:49-57 | registration clears an older refresh token, login keeps it, both store the same access token |

## Left out

- Network and JSON: `fetch`, `response.json()` and `response.text()` are not modelled. A reply is an input: a throw, or a status plus a decoded body. `apiRequest` never reads the body, so its replies carry only the status, and the caller receives the body separately.
- Non-string JSON values: body fields are optional strings, integers or booleans. A numeric `access` or a string `is_staff` is not modelled.
- Header forms: a `Headers` object or array as `options.headers` is not modelled, and neither is case-insensitive header matching. Headers are a plain map.
- Token decoding: `atob` and `JSON.parse` of the payload are a function parameter, `decode`. The property that `atob` rejects base64url's `-` and `_` therefore lies in that parameter.
- Numeric coercion of `exp`: a payload whose `exp` coerces to a number is given as that integer, including `null` as 0.
- Floating point: fractional `exp`, and `parseInt` results beyond 2^53 losing precision, are not modelled; integers are exact.
- Timers and listeners: the 5-minute `setInterval`, the `focus` listener, the toast auto-close timer and the `refreshProfile` listener are not modelled. A proactive check is a step that the environment may take at any time.
- Proactive callers: a proactive check that joins a pending refresh is not tracked as a waiter, because it discards the result.
- Microtask ordering: each await point is one step. A settled refresh resumes all its waiters in one step, which is sound because JavaScript runs microtasks before the next task.
- Console output: the `console.log` and `console.error` calls in the modelled paths are not modelled (src/lib/auth.ts:51; src/app/login/page.tsx:47 and 67, the first of which prints the whole token response; src/app/register/page.tsx:63, 66 and 84; src/app/admin/page.tsx:94; src/components/FloatingNavbar.tsx:49 and 52). They change no state the model tracks.
- Navigation and events: `window.location.href`, `router.push` and `dispatchEvent` are recorded only as a target string and a log entry.
- Loading flags, error clearing on input, form fields other than the password, and rendering are not modelled.
- Admin pricing I/O: `fetchCurrentPricing` and the response handling after the pricing request are not modelled; only the checks before the request are.
- Toast ids: the ids that `Math.random` yields are a parameter and are not guaranteed unique.
- Storage failures: `localStorage` throwing (quota, disabled storage) is not modelled.
- Profile email: the navigation bar's profile has no email, but the model uses one profile record for both pages, and the bar ignores the email.
- api-keys, home, chatbot and API-docs pages, the chatbot proxy routes, the dialog and dropdown widgets, `AuthProvider` and the Tailwind configuration are not part of this model.

=== FILE: admin.dfy ===
/** The admin page: the access gate run on load (`checkAuthAndFetchData`)
    and the validation in front of a pricing update (`handleUpdatePricing`). */
module Admin {
  import opened Wrappers
  import opened JsString
  import opened JsNumber
  import opened Http
  import opened Session
    import opened ApiRequest
  import opened Profile

  /** The gate's outcome: the session afterwards, whether the page is
      shown, and whether the profile was requested. */
  datatype Gate = Gate(session: State, authorized: bool, profileRequested: bool)

  /** The profile request made through the wrapper came back with a 2xx
      whose body decoded: the one case in which the gate reads a profile. */
  predicate ProfileArrived(call: Call, body: Option<ProfileBody>) {
    call.phase.Returned? && Ok(call.phase.status) && body.Some?
  }

  /** `checkAuthAndFetchData`. With no token go to the login page; a cached
      "false" goes home and a cached "true" admits at once; otherwise the
      profile is requested through the request wrapper, whose replies are
      `first`, `refreshReply` and `retry`. `body` is the decoded profile,
      `None` when the body is not JSON. */
  function CheckAuth(s: State, first: Response, refreshReply: Reply<AuthBody>, retry: Response, body: Option<ProfileBody>): (g: Gate)
    ensures g.profileRequested <==> HasToken(s) && Get(s.store, IsStaff) != Some("false") && Get(s.store, IsStaff) != Some("true")
    ensures !HasToken(s) ==> g == Gate(s.(target := Some(LoginPath)), false, false)
    ensures HasToken(s) && Get(s.store, IsStaff) == Some("false") ==> g == Gate(s.(target := Some(HomePath)), false, false)
    ensures HasToken(s) && Get(s.store, IsStaff) == Some("true") ==> g == Gate(s, true, false)
    ensures g.profileRequested ==>
      var (s1, call) := ApiRequestAlone(s, map[], first, refreshReply, retry);
      && (ProfileArrived(call, body) ==>
            var p := Normalize(body.value);
            && g.authorized == p.isStaff
            && Get(g.session.store, IsStaff) == Some(StaffFlag(p.isStaff))
            && OthersUnchanged(s1.store, g.session.store, {IsStaff})
            && g.session.events == s1.events
            && g.session.inFlight == s1.inFlight && g.session.refreshCalls == s1.refreshCalls
            && (p.isStaff ==> g.session.target == s1.target)
            && (!p.isStaff ==> g.session.target == Some(HomePath)))
      && (!ProfileArrived(call, body) ==> g == Gate(s1.(target := Some(LoginPath)), false, true))
    ensures g.authorized ==> Get(g.session.store, IsStaff) == Some("true")
    ensures !g.authorized ==> g.session.target == Some(LoginPath) || g.session.target == Some(HomePath)
  {
    if !HasToken(s) then Gate(s.(target := Some(LoginPath)), false, false)
    else if Get(s.store, IsStaff) == Some("false") then Gate(s.(target := Some(HomePath)), false, false)
    else if Get(s.store, IsStaff) == Some("true") then Gate(s, true, false)
    else
      var (s1, call) := ApiRequestAlone(s, map[], first, refreshReply, retry);
      if ProfileArrived(call, body) then
        var p := Normalize(body.value);
        var s2 := s1.(store := s1.store[IsStaff := StaffFlag(p.isStaff)]);
        if p.isStaff then Gate(s2, true, true)
        else Gate(s2.(target := Some(HomePath)), false, true)
      else Gate(s1.(target := Some(LoginPath)), false, true)
  }

  /** A profile that came back through the wrapper (returned, not thrown)
      leaves a token stored. */
  lemma ReturnedCallKeepsToken(s: State, first: Response, refreshReply: Reply<AuthBody>, retry: Response)
    requires HasToken(s)
    ensures var (s1, call) := ApiRequestAlone(s, map[], first, refreshReply, retry);
      call.phase.Returned? ==> HasToken(s1)
  {
  }

  /** A profile request that throws, or that answers with a status other
      than 2xx, 401 and 403, sends the user to the login page with nothing
      else changed: no refresh, no logout, no cached flag. */
  lemma {:induction false} FailedProfileGoesToLogin(s: State, first: Response, refreshReply: Reply<AuthBody>, retry: Response, body: Option<ProfileBody>)
    requires HasToken(s) && Get(s.store, IsStaff) != Some("false") && Get(s.store, IsStaff) != Some("true")
    requires first.Threw? || (!Ok(first.status) && !AuthRejected(first.status))
    ensures CheckAuth(s, first, refreshReply, retry, body) == Gate(s.(target := Some(LoginPath)), false, true)
  {
    if first.Threw? {
      ThrowPassesThrough(s, map[], refreshReply, retry);
    } else {
      PassThrough(s, map[], first, refreshReply, retry);
    }
  }

  /** A 2xx profile of a user who is not staff caches "false" and sends the
      user home. */
  lemma NonStaffGoesHome(s: State, status: int, refreshReply: Reply<AuthBody>, retry: Response, body: ProfileBody)
    requires HasToken(s) && Get(s.store, IsStaff) != Some("false") && Get(s.store, IsStaff) != Some("true")
    requires Ok(status) && !Normalize(body).isStaff
    ensures var g := CheckAuth(s, StatusReply(status), refreshReply, retry, Some(body));
      && !g.authorized
      && g.session.target == Some(HomePath)
      && Get(g.session.store, IsStaff) == Some("false")
  {
    PassThrough(s, map[], StatusReply(status), refreshReply, retry);
  }

  /** After a 2xx profile the verdict is cached: the next visit decides
      from storage, without a request, and reaches the same verdict. */
  lemma GateCachesVerdict(s: State, first: Response, refreshReply: Reply<AuthBody>, retry: Response, body: ProfileBody,
                          first': Response, refreshReply': Reply<AuthBody>, retry': Response, body': Option<ProfileBody>)
    requires HasToken(s) && Get(s.store, IsStaff) != Some("false") && Get(s.store, IsStaff) != Some("true")
    requires var (_, call) := ApiRequestAlone(s, map[], first, refreshReply, retry);
      call.phase.Returned? && Ok(call.phase.status)
    ensures var g := CheckAuth(s, first, refreshReply, retry, Some(body));
      var g' := CheckAuth(g.session, first', refreshReply', retry', body');
      && g.authorized == Normalize(body).isStaff
      && !g'.profileRequested
      && g'.authorized == g.authorized
  {
    ReturnedCallKeepsToken(s, first, refreshReply, retry);
  }

  const EmptyFieldsError := "Harga dan deskripsi tidak boleh kosong"
  const NotPositiveError := "Harga harus berupa angka positif"

  datatype PricingDecision = PricingRejected(error: string) | PricingSubmitted(price: int, description: string)

  /** The checks in `handleUpdatePricing` before any request: both fields
      non-blank after trimming, then a positive `parseInt` of the price. */
  function ValidatePricing(price: string, description: string): (d: PricingDecision)
    ensures d == PricingRejected(EmptyFieldsError) <==> AllSpace(price) || AllSpace(description)
    ensures d.PricingSubmitted? <==>
      !AllSpace(price) && !AllSpace(description) && ParseInt(price).Some? && ParseInt(price).value > 0
    ensures d.PricingSubmitted? ==>
      d.price > 0 && Some(d.price) == ParseInt(price) && d.description == Trim(description) && d.description != ""
    ensures d.PricingRejected? ==> d.error == EmptyFieldsError || d.error == NotPositiveError
  {
    if Trim(price) == "" || Trim(description) == "" then PricingRejected(EmptyFieldsError)
    else
      var n := ParseInt(price);
      if n.None? || n.value <= 0 then PricingRejected(NotPositiveError)
      else PricingSubmitted(n.value, Trim(description))
  }

  /** Whitespace, a positive numeral and any trailing text that does not
      continue it submit that number: "12abc" submits 12. */
  lemma PricingReadsLeadingNumeral(ws: string, n: nat, rest: string, description: string)
    requires AllSpace(ws) && n > 0
    requires rest == [] || !IsDecimalDigit(rest[0])
    requires !AllSpace(description)
    ensures ValidatePricing(ws + DecimalString(n) + rest, description) == PricingSubmitted(n, Trim(description))
  {
    var price := ws + DecimalString(n) + rest;
    ParseIntReadsLeadingNumeral(ws, n, rest);
    assert !AllSpace(price) by {
      assert price[|ws|] == DecimalString(n)[0];
      assert !IsJsSpace(price[|ws|]);
    }
    assert Trim(price) != [];
  }
}

=== FILE: api_request.dfy ===
/** The authenticated request wrapper (`AuthManager.apiRequest`). One call
    moves through its await points as separate steps, so several calls can
    be interleaved with each other and with the shared refresh:
    `Begin` (first request sent), `OnFirstReply`, `OnRefreshResult` (the
    shared refresh settled), `OnRetryReply`. */
module ApiRequest {
  import opened Wrappers
  import opened JsString
  import opened Http
  import opened Session
  import opened Refresh

  const AuthFailedMessage := "Authentication failed"

  /** `token ? \`Bearer ${token}\` : ''`. */
  function Bearer(token: Option<string>): (h: string)
    ensures Truthy(token) ==> h == "Bearer " + token.value
    ensures !Truthy(token) ==> h == ""
  {
    if Truthy(token) then "Bearer " + token.value else ""
  }

  /** The headers of the first request: JSON content type and the bearer
      header, each overridden by a header of the caller's own. */
  function FirstHeaders(token: Option<string>, caller: Headers): (h: Headers)
    ensures h.Keys == caller.Keys + {AuthorizationHeader, ContentTypeHeader}
    ensures forall k :: k in caller ==> h[k] == caller[k]
    ensures AuthorizationHeader !in caller ==> h[AuthorizationHeader] == Bearer(token)
    ensures ContentTypeHeader !in caller ==> h[ContentTypeHeader] == JsonContentType
  {
    map[ContentTypeHeader := JsonContentType, AuthorizationHeader := Bearer(token)] + caller
  }

  /** The headers of the replay: the first request's headers with the new
      bearer, which now wins even over a caller-supplied one. */
  function RetryHeaders(h: Headers, newToken: string): (h': Headers)
    ensures h'.Keys == h.Keys + {AuthorizationHeader}
    ensures h'[AuthorizationHeader] == "Bearer " + newToken
    ensures forall k :: k in h && k != AuthorizationHeader ==> h'[k] == h[k]
  {
    h[AuthorizationHeader := "Bearer " + newToken]
  }

  /** What a request's `fetch` yields to the wrapper: a throw, or a
      response whose status the wrapper reads and whose body it hands back
      unread. */
  type Response = Reply<()>

  /** The reply `fetch` resolves with when the status is `status`. */
  function StatusReply(status: int): Response {
    Responded(status, ())
  }

  /** A response of 401 or 403: the one reply that starts a refresh. */
  predicate Refused(reply: Response) {
    reply.Responded? && AuthRejected(reply.status)
  }

  /** Where a call stands. `Errored` is a call rejected with its own
      `fetch`'s error; `Failed` is one rejected with "Authentication
      failed" after a refresh yielded null. */
  datatype Phase =
    | AwaitFirst
    | AwaitRefresh
    | AwaitRetry
    | Returned(status: int)
    | Errored
    | Failed(message: string)

  /** One `apiRequest` call: its current request headers, the headers of
      every request it has sent so far, and where it stands. */
  datatype Call = Call(headers: Headers, sent: seq<Headers>, phase: Phase)

  /** A call sends one request, and a second one only once it has begun
      the replay. */
  predicate WellFormed(c: Call) {
    && 1 <= |c.sent| <= 2
    && c.sent[|c.sent| - 1] == c.headers
    && ((c.phase.AwaitFirst? || c.phase.AwaitRefresh?) ==> |c.sent| == 1)
    && (c.phase.AwaitRetry? ==> |c.sent| == 2)
  }

  /** Up to the first await: read the token, build the headers, send. */
  function Begin(s: State, caller: Headers): (c: Call)
    ensures WellFormed(c) && c.phase == AwaitFirst
    ensures |c.sent| == 1 && c.headers == FirstHeaders(Get(s.store, Token), caller)
  {
    var h := FirstHeaders(Get(s.store, Token), caller);
    Call(h, [h], AwaitFirst)
  }

  /** The first reply arrives. A throw rejects the call with that error,
      and any status other than 401/403 is returned as it is, both with no
      refresh and no change to the session; 401/403 calls `refreshToken`,
      which with no stored token and none pending yields null at once, and
      then the call logs out and throws. */
  function OnFirstReply(s: State, c: Call, reply: Response): (r: (State, Call))
    ensures r.1.sent == c.sent && r.1.headers == c.headers
    ensures !c.phase.AwaitFirst? ==> r == (s, c)
    ensures c.phase.AwaitFirst? && reply.Threw? ==> r == (s, c.(phase := Errored))
    ensures c.phase.AwaitFirst? && reply.Responded? && !AuthRejected(reply.status) ==>
      r == (s, c.(phase := Returned(reply.status)))
    ensures c.phase.AwaitFirst? && Refused(reply) ==>
      && (r.1.phase == AwaitRefresh <==> s.inFlight || HasToken(s))
      && (r.1.phase != AwaitRefresh ==> r.1.phase == Failed(AuthFailedMessage) && r.0 == Logout(s))
      && r.0.refreshCalls == s.refreshCalls + (if !s.inFlight && HasToken(s) then 1 else 0)
    ensures c.phase.AwaitFirst? ==> (r.0.inFlight <==> s.inFlight || r.1.phase == AwaitRefresh)
    ensures c.phase.AwaitFirst? && r.1.phase == AwaitRefresh ==> r.0 == s.(inFlight := true, refreshCalls := r.0.refreshCalls)
    ensures WellFormed(c) ==> WellFormed(r.1)
  {
    if !c.phase.AwaitFirst? then (s, c)
    else if reply.Threw? then (s, c.(phase := Errored))
    else if !AuthRejected(reply.status) then (s, c.(phase := Returned(reply.status)))
    else
      var (s1, arrival, _) := RequestRefresh(s);
      if arrival == Awaiting then (s1, c.(phase := AwaitRefresh))
      else (Logout(s1), c.(phase := Failed(AuthFailedMessage)))
  }

  /** What a call waiting on the refresh does once it settles with
      `result`: replay with the new bearer, or fail. A call in any other
      phase is not waiting and is left alone. */
  function Resume(c: Call, result: Option<string>): (c': Call)
    ensures !c.phase.AwaitRefresh? ==> c' == c
    ensures c.phase.AwaitRefresh? && Truthy(result) ==>
      && c'.phase == AwaitRetry
      && c'.sent == c.sent + [RetryHeaders(c.headers, result.value)]
    ensures c.phase.AwaitRefresh? && !Truthy(result) ==> c' == c.(phase := Failed(AuthFailedMessage))
    ensures WellFormed(c) ==> WellFormed(c')
  {
    if !c.phase.AwaitRefresh? then c
    else if Truthy(result) then
      var h := RetryHeaders(c.headers, result.value);
      Call(h, c.sent + [h], AwaitRetry)
    else c.(phase := Failed(AuthFailedMessage))
  }

  /** The shared refresh settles with `result`. A token means one replay
      with the new bearer; null means logout and "Authentication failed". */
  function OnRefreshResult(s: State, c: Call, result: Option<string>): (r: (State, Call))
    ensures r.1 == Resume(c, result)
    ensures !c.phase.AwaitRefresh? || Truthy(result) ==> r.0 == s
    ensures c.phase.AwaitRefresh? && !Truthy(result) ==> r.0 == Logout(s)
  {
    if c.phase.AwaitRefresh? && !Truthy(result) then (Logout(s), Resume(c, result))
    else (s, Resume(c, result))
  }

  /** The replay's reply is returned whatever its status; a replay that
      throws rejects the call with that error. No refresh follows either. */
  function OnRetryReply(c: Call, reply: Response): (c': Call)
    ensures c.phase.AwaitRetry? && reply.Responded? ==> c' == c.(phase := Returned(reply.status))
    ensures c.phase.AwaitRetry? && reply.Threw? ==> c' == c.(phase := Errored)
    ensures !c.phase.AwaitRetry? ==> c' == c
    ensures WellFormed(c) ==> WellFormed(c')
  {
    if !c.phase.AwaitRetry? then c
    else if reply.Threw? then c.(phase := Errored)
    else c.(phase := Returned(reply.status))
  }

  /** One `apiRequest` run on its own: the first reply `first`, the refresh
      reply `refreshReply` (used only if this call waits on a refresh), and
      the replay's reply `retry` (used only if there is a replay). */
  function ApiRequestAlone(s: State, caller: Headers, first: Response, refreshReply: Reply<AuthBody>, retry: Response): (r: (State, Call))
    ensures r.1.phase.Returned? || r.1.phase.Errored? || r.1.phase.Failed?
    ensures 1 <= |r.1.sent| <= 2 && r.1.sent[0] == FirstHeaders(Get(s.store, Token), caller)
    ensures |r.1.sent| == 2 ==> Refused(first)
    ensures !Refused(first) ==> r.0 == s
  {
    var c0 := Begin(s, caller);
    var (s1, c1) := OnFirstReply(s, c0, first);
    var (s2, c2) :=
      if c1.phase.AwaitRefresh? then
        var (s', result) := SettleRefresh(s1, refreshReply);
        OnRefreshResult(s', c1, result)
      else (s1, c1);
    (s2, OnRetryReply(c2, retry))
  }

  /** Whatever happens, the call ends returned or rejected, having sent at
      most two requests, and the refresh handle is clear if it was before. */
  lemma AloneTerminates(s: State, caller: Headers, first: Response, refreshReply: Reply<AuthBody>, retry: Response)
    ensures var (s', c) := ApiRequestAlone(s, caller, first, refreshReply, retry);
      && (c.phase.Returned? || c.phase.Errored? || c.phase.Failed?)
      && WellFormed(c)
      && (!s.inFlight ==> !s'.inFlight)
  {
  }

  /** The first request carries the stored token as a bearer, or an empty
      Authorization header with no token, unless the caller supplied one. */
  lemma FirstRequestBearer(s: State, caller: Headers, first: Response, refreshReply: Reply<AuthBody>, retry: Response)
    requires AuthorizationHeader !in caller
    ensures var (_, c) := ApiRequestAlone(s, caller, first, refreshReply, retry);
      c.sent[0][AuthorizationHeader] == if HasToken(s) then "Bearer " + Get(s.store, Token).value else ""
  {
  }

  /** A reply other than 401/403 is handed back unchanged: no refresh, no
      replay, no change to the session. */
  lemma PassThrough(s: State, caller: Headers, first: Response, refreshReply: Reply<AuthBody>, retry: Response)
    requires first.Responded? && !AuthRejected(first.status)
    ensures var (s', c) := ApiRequestAlone(s, caller, first, refreshReply, retry);
      s' == s && c.phase == Returned(first.status) && |c.sent| == 1
  {
  }

  /** A first request that throws rejects the call with that error: no
      refresh, no replay, no logout, no change to the session. */
  lemma ThrowPassesThrough(s: State, caller: Headers, refreshReply: Reply<AuthBody>, retry: Response)
    ensures var (s', c) := ApiRequestAlone(s, caller, Threw, refreshReply, retry);
      s' == s && c.phase == Errored && |c.sent| == 1
  {
  }

  /** On 401/403 with a renewing refresh, the request is replayed exactly
      once with the new bearer and the replay's reply is returned, even if
      it is 401/403 again; a replay that throws rejects the call, without
      undoing the renewal. */
  lemma ReplayOnceAfterRenewal(s: State, caller: Headers, first: Response, refreshReply: Reply<AuthBody>, retry: Response)
    requires !s.inFlight && HasToken(s) && Refused(first)
    requires Classify(refreshReply).Renewed?
    ensures var (s', c) := ApiRequestAlone(s, caller, first, refreshReply, retry);
      var t := Classify(refreshReply).token;
      && c.phase == (if retry.Threw? then Errored else Returned(retry.status))
      && |c.sent| == 2
      && c.sent[1][AuthorizationHeader] == "Bearer " + t
      && Get(s'.store, Token) == Some(t)
      && s'.refreshCalls == s.refreshCalls + 1
      && s'.events == s.events + [TokenRefreshed(t)]
  {
  }

  /** On 401/403 with a refresh that yields null the call logs out and
      fails, after one request. A rejected refresh logs out twice (once in
      the coordinator, once in the wrapper); a transient one logs out once,
      so even a network hiccup ends the session. */
  lemma FailWhenRefreshYieldsNull(s: State, caller: Headers, first: Response, refreshReply: Reply<AuthBody>, retry: Response)
    requires !s.inFlight && HasToken(s) && Refused(first)
    requires !Classify(refreshReply).Renewed?
    ensures var (s', c) := ApiRequestAlone(s, caller, first, refreshReply, retry);
      && c.phase == Failed(AuthFailedMessage)
      && |c.sent| == 1
      && !HasToken(s')
      && s'.target == Some(LoginPath)
      && s'.refreshCalls == s.refreshCalls + 1
      && (Classify(refreshReply).Rejected? ==> s'.events == s.events + [UserLoggedOut, UserLoggedOut])
      && (Classify(refreshReply).Transient? ==> s'.events == s.events + [UserLoggedOut])
  {
  }

  /** With no stored token a 401/403 leads to no refresh request at all:
      the call logs out and fails straight away. */
  lemma NoTokenNoRefreshRequest(s: State, caller: Headers, first: Response, refreshReply: Reply<AuthBody>, retry: Response)
    requires !s.inFlight && !HasToken(s) && Refused(first)
    ensures var (s', c) := ApiRequestAlone(s, caller, first, refreshReply, retry);
      && s'.refreshCalls == s.refreshCalls
      && c.phase == Failed(AuthFailedMessage)
      && s' == Logout(s)
  {
  }
}

=== FILE: expiry.dfy ===
/** The expiry check (`AuthManager.shouldRefreshToken`) and the proactive
    check that uses it (`checkAndRefresh` inside `setupProactiveRefresh`).
    Decoding the payload segment (base64 then JSON) is a parameter: a
    function from the segment text to the claims it yields. */
module Expiry {
  import opened Wrappers
    import opened Session
  import opened Refresh

  /** Fifteen minutes, in milliseconds. */
  const RefreshThresholdMs: int := 15 * 60 * 1000

  /** What decoding the payload segment yields: a throw (bad base64 or bad
      JSON), a payload whose `exp` is not a number (so `exp * 1000` is NaN),
      or `exp` in seconds since the epoch. */
  datatype Claims = Undecodable | NoNumericExp | Exp(seconds: int)

  /** The index of the first `c` in `s`, if any. */
  function IndexOf(s: string, c: char): (r: Option<nat>)
    ensures r.Some? ==> r.value < |s| && s[r.value] == c && c !in s[..r.value]
    ensures r.None? <==> c !in s
  {
    if s == [] then None
    else if s[0] == c then Some(0)
    else
      var r := IndexOf(s[1..], c);
      if r.None? then None
      else
        assert s[..r.value + 1] == [s[0]] + s[1..][..r.value];
        Some(r.value + 1)
  }

  /** `token.split('.')[1]`: the text between the first and the second dot
      (or the end), and `undefined` when the token has no dot. */
  function MiddleSegment(token: string): (r: Option<string>)
    ensures r.None? <==> '.' !in token
    ensures r.Some? ==> '.' !in r.value
  {
    match IndexOf(token, '.')
    case None => None
    case Some(i) =>
      var rest := token[i + 1..];
      match IndexOf(rest, '.')
      case None => Some(rest)
      case Some(j) => Some(rest[..j])
  }

  /** Splitting a joined token recovers its middle part. */
  lemma MiddleSegmentOfJoin(head: string, middle: string, tail: string)
    requires '.' !in head && '.' !in middle
    requires tail == [] || tail[0] == '.'
    ensures MiddleSegment(head + "." + middle + tail) == Some(middle)
  {
    var token := head + "." + middle + tail;
    assert token == head + ("." + middle + tail);
    IndexOfFirst(head, '.', "." + middle + tail);
    var rest := token[|head| + 1..];
    assert rest == middle + tail;
    if tail == [] {
      assert rest == middle;
    } else {
      IndexOfFirst(middle, '.', tail);
      assert rest[..|middle|] == middle;
    }
  }

  /** The first `c` after a stretch without `c` is found right there. */
  lemma {:induction false} IndexOfFirst(a: string, c: char, b: string)
    requires c !in a && b != [] && b[0] == c
    ensures IndexOf(a + b, c) == Some(|a|)
  {
    if a != [] {
      assert (a + b)[1..] == a[1..] + b;
      IndexOfFirst(a[1..], c, b);
    } else {
      assert a + b == b;
    }
  }

  /** The comparison `exp * 1000 - now < 15 min` on already decoded
      claims; a decode failure counts as due. */
  function ClaimsDue(claims: Claims, nowMs: int): (due: bool)
    ensures claims.Undecodable? ==> due
    ensures claims.NoNumericExp? ==> !due
    ensures claims.Exp? ==> (due <==> nowMs > claims.seconds * 1000 - 15 * 60 * 1000)
  {
    match claims
    case Undecodable => true
    case NoNumericExp => false
    case Exp(seconds) => seconds * 1000 - nowMs < RefreshThresholdMs
  }

  /** `shouldRefreshToken(token)` at time `nowMs`. A token without a dot
      makes `atob(undefined)` throw, so it counts as due. */
  function ShouldRefreshToken(token: string, nowMs: int, decode: string -> Claims): (due: bool)
    ensures '.' !in token ==> due
    ensures MiddleSegment(token).Some? && decode(MiddleSegment(token).value).Undecodable? ==> due
    ensures MiddleSegment(token).Some? && decode(MiddleSegment(token).value).NoNumericExp? ==> !due
    ensures MiddleSegment(token).Some? && decode(MiddleSegment(token).value).Exp? ==>
      (due <==> nowMs > decode(MiddleSegment(token).value).seconds * 1000 - 15 * 60 * 1000)
  {
    match MiddleSegment(token)
    case None => true
    case Some(segment) => ClaimsDue(decode(segment), nowMs)
  }

  /** The verdict for a token with an expiry claim: due exactly when less
      than fifteen minutes remain, with exactly fifteen minutes not due. */
  lemma DueIffUnderThreshold(head: string, payload: string, signature: string, seconds: int, nowMs: int, decode: string -> Claims)
    requires '.' !in head && '.' !in payload && '.' !in signature
    requires decode(payload) == Exp(seconds)
    ensures ShouldRefreshToken(head + "." + payload + "." + signature, nowMs, decode)
      <==> seconds * 1000 - nowMs < 15 * 60 * 1000
    ensures seconds * 1000 - nowMs == 15 * 60 * 1000 ==>
      !ShouldRefreshToken(head + "." + payload + "." + signature, nowMs, decode)
  {
    assert head + "." + payload + "." + signature == head + "." + payload + ("." + signature);
    MiddleSegmentOfJoin(head, payload, "." + signature);
  }

  /** Ten minutes left is due; twenty minutes left is not. */
  lemma TenAndTwentyMinutes(nowMs: int, seconds: int)
    ensures seconds * 1000 == nowMs + 10 * 60 * 1000 ==> ClaimsDue(Exp(seconds), nowMs)
    ensures seconds * 1000 == nowMs + 20 * 60 * 1000 ==> !ClaimsDue(Exp(seconds), nowMs)
  {
  }

  /** Once due, a token stays due as time passes. */
  lemma DueIsMonotoneInTime(claims: Claims, earlier: int, later: int)
    requires earlier <= later && ClaimsDue(claims, earlier)
    ensures ClaimsDue(claims, later)
  {
  }

  /** A token with no dot, or whose payload does not decode, is always due;
      a payload without a numeric `exp` is never due. */
  lemma FailSafeVerdicts(token: string, nowMs: int, decode: string -> Claims)
    ensures '.' !in token ==> ShouldRefreshToken(token, nowMs, decode)
    ensures MiddleSegment(token).Some? && decode(MiddleSegment(token).value) == Undecodable
      ==> ShouldRefreshToken(token, nowMs, decode)
    ensures MiddleSegment(token).Some? && decode(MiddleSegment(token).value) == NoNumericExp
      ==> !ShouldRefreshToken(token, nowMs, decode)
  {
  }

  /** `checkAndRefresh`: with a stored token that is due, call
      `refreshToken` (its result is discarded); otherwise do nothing. */
  function CheckAndRefresh(s: State, nowMs: int, decode: string -> Claims): (s': State)
    ensures s'.refreshCalls == s.refreshCalls
      + (if !s.inFlight && HasToken(s) && ShouldRefreshToken(Get(s.store, Token).value, nowMs, decode) then 1 else 0)
    ensures s'.inFlight <==> s.inFlight || (HasToken(s) && ShouldRefreshToken(Get(s.store, Token).value, nowMs, decode))
    ensures s'.store == s.store && s'.events == s.events && s'.target == s.target
  {
    if HasToken(s) && ShouldRefreshToken(Get(s.store, Token).value, nowMs, decode) then RequestRefresh(s).0
    else s
  }
}

=== FILE: http.dfy ===
/** The shapes of network replies as the session code sees them. A reply is
    an input to the model: the fetch either throws (network failure, or a
    body that is not JSON) or yields a status and a decoded body. */
module Http {
  import opened Wrappers

  datatype Reply<B> = Threw | Responded(status: int, body: B)

  /** Request headers, by name. */
  type Headers = map<string, string>

  const AuthorizationHeader := "Authorization"
  const ContentTypeHeader := "Content-Type"
  const JsonContentType := "application/json"

  /** `response.ok`. */
  predicate Ok(status: int) {
    200 <= status <= 299
  }

  /** The statuses the wrapper treats as a rejected credential. */
  predicate AuthRejected(status: int) {
    status == 401 || status == 403
  }

  /** `data.data` of the login, registration and refresh endpoints. */
  datatype TokenData = TokenData(access: Option<string>, refresh: Option<string>)

  /** The decoded JSON body of the login, registration and refresh
      endpoints: the nested `data` object, a top-level `access` and an
      error `message`, each possibly absent. */
  datatype AuthBody = AuthBody(data: Option<TokenData>, access: Option<string>, message: Option<string>)

  /** `data.data?.access`. */
  function NestedAccess(body: AuthBody): Option<string> {
    if body.data.Some? then body.data.value.access else None
  }

  /** `data.data?.refresh`. */
  function NestedRefresh(body: AuthBody): Option<string> {
    if body.data.Some? then body.data.value.refresh else None
  }
}

=== FILE: interleaving.dfy ===
/** Interleavings of many `apiRequest` calls, the shared refresh and the
    proactive check, as a sequential state machine. Each step is one
    resumption of JavaScript code between await points: a call starts, a
    call's first reply or replay reply arrives, the pending refresh reply
    arrives (waking every call waiting on it before anything else runs),
    or the proactive check fires. */
module Interleaving {
  import opened Wrappers
  import opened JsString
  import opened Http
  import opened Session
  import opened Refresh
  import opened Expiry
  import opened ApiRequest

  datatype World = World(session: State, calls: seq<Call>)

  datatype Step =
    | Start(caller: Headers)
    | FirstReply(call: nat, reply: Response)
    | RefreshReply(refresh: Reply<AuthBody>)
    | RetryReply(call: nat, reply: Response)
    | ProactiveCheck(nowMs: int)

  /** How many calls are waiting on the shared refresh. */
  function Waiting(calls: seq<Call>): nat {
    if calls == [] then 0
    else (if calls[0].phase.AwaitRefresh? then 1 else 0) + Waiting(calls[1..])
  }

  function Repeat(e: Event, n: nat): (r: seq<Event>)
    ensures |r| == n && forall i :: 0 <= i < n ==> r[i] == e
  {
    if n == 0 then [] else [e] + Repeat(e, n - 1)
  }

  /** The settled refresh resumes every waiting call in order. With a
      token, each waiting call replays and the session is untouched; with
      null, each waiting call logs out once more. */
  function WakeAll(s: State, calls: seq<Call>, result: Option<string>): (r: (State, seq<Call>))
    ensures |r.1| == |calls|
    ensures forall i :: 0 <= i < |calls| ==> r.1[i] == Resume(calls[i], result)
    ensures Truthy(result) || Waiting(calls) == 0 ==> r.0 == s
    ensures !Truthy(result) ==> r.0.events == s.events + Repeat(UserLoggedOut, Waiting(calls))
    ensures !Truthy(result) && Waiting(calls) > 0 ==>
      && Get(r.0.store, Token) == None
      && OthersUnchanged(s.store, r.0.store, {Token})
      && r.0.target == Some(LoginPath)
    ensures r.0.inFlight == s.inFlight && r.0.refreshCalls == s.refreshCalls
    ensures Waiting(r.1) == 0
    decreases |calls|
  {
    if calls == [] then (s, [])
    else
      var (s1, c1) := OnRefreshResult(s, calls[0], result);
      var (s2, rest) := WakeAll(s1, calls[1..], result);
      assert ([c1] + rest)[1..] == rest;
      assert !Truthy(result) && calls[0].phase.AwaitRefresh? ==>
        s.events + [UserLoggedOut] + Repeat(UserLoggedOut, Waiting(calls[1..])) == s.events + Repeat(UserLoggedOut, Waiting(calls));
      (s2, [c1] + rest)
  }

  /** One step of the environment. Only a new call adds to the list of
      calls, and the refresh count never goes down. */
  function Apply(w: World, step: Step, decode: string -> Claims): (w': World)
    ensures |w'.calls| == |w.calls| + (if step.Start? then 1 else 0)
    ensures w'.session.refreshCalls >= w.session.refreshCalls
  {
    match step
    case Start(caller) =>
      w.(calls := w.calls + [Begin(w.session, caller)])
    case FirstReply(i, reply) =>
      if i < |w.calls| then
        var (s', c') := OnFirstReply(w.session, w.calls[i], reply);
        World(s', w.calls[i := c'])
      else w
    case RefreshReply(reply) =>
      if w.session.inFlight then
        var (s1, result) := SettleRefresh(w.session, reply);
        var (s2, calls') := WakeAll(s1, w.calls, result);
        World(s2, calls')
      else w
    case RetryReply(i, reply) =>
      if i < |w.calls| then w.(calls := w.calls[i := OnRetryReply(w.calls[i], reply)]) else w
    case ProactiveCheck(nowMs) =>
      w.(session := CheckAndRefresh(w.session, nowMs, decode))
  }

  /** How many of `steps` start a new call. */
  function Starts(steps: seq<Step>): nat {
    if steps == [] then 0 else (if steps[0].Start? then 1 else 0) + Starts(steps[1..])
  }

  /** The steps in order. Exactly one call is added per `Start` step and
      none is dropped, and the refresh count never goes down. */
  function Run(w: World, steps: seq<Step>, decode: string -> Claims): (w': World)
    ensures |w'.calls| == |w.calls| + Starts(steps)
    ensures w'.session.refreshCalls >= w.session.refreshCalls
    decreases |steps|
  {
    if steps == [] then w else Run(Apply(w, steps[0], decode), steps[1..], decode)
  }

  /** A step only appends to what a call has sent: no request is ever
      taken back or rewritten. */
  lemma StepOnlyAppends(w: World, step: Step, decode: string -> Claims)
    ensures forall i :: 0 <= i < |w.calls| ==> w.calls[i].sent <= Apply(w, step, decode).calls[i].sent
  {
  }

  /** Over any run, what each call has sent only grows at the end. */
  lemma {:induction false} RunOnlyAppends(w: World, steps: seq<Step>, decode: string -> Claims)
    ensures forall i :: 0 <= i < |w.calls| ==> w.calls[i].sent <= Run(w, steps, decode).calls[i].sent
    decreases |steps|
  {
    if steps != [] {
      var w1 := Apply(w, steps[0], decode);
      StepOnlyAppends(w, steps[0], decode);
      RunOnlyAppends(w1, steps[1..], decode);
    }
  }

  lemma {:induction false} RunSnoc(w: World, steps: seq<Step>, last: Step, decode: string -> Claims)
    ensures Run(w, steps + [last], decode) == Apply(Run(w, steps, decode), last, decode)
    decreases |steps|
  {
    if steps != [] {
      assert (steps + [last])[1..] == steps[1..] + [last];
      RunSnoc(Apply(w, steps[0], decode), steps[1..], last, decode);
    }
  }

  /** Reachable worlds: every call has sent one request, or two once
      replaying, and a call only waits while a refresh is pending. */
  predicate Invariant(w: World) {
    && (forall i :: 0 <= i < |w.calls| ==> WellFormed(w.calls[i]))
    && (Waiting(w.calls) > 0 ==> w.session.inFlight)
  }

  lemma {:induction false} WaitingUpdate(calls: seq<Call>, i: nat, c: Call)
    requires i < |calls|
    ensures Waiting(calls[i := c]) == Waiting(calls) - (if calls[i].phase.AwaitRefresh? then 1 else 0) + (if c.phase.AwaitRefresh? then 1 else 0)
  {
    if i > 0 {
      assert calls[i := c][1..] == calls[1..][i - 1 := c];
      WaitingUpdate(calls[1..], i - 1, c);
    } else {
      assert calls[i := c][1..] == calls[1..];
    }
  }

  lemma {:induction false} WaitingAppend(calls: seq<Call>, c: Call)
    ensures Waiting(calls + [c]) == Waiting(calls) + (if c.phase.AwaitRefresh? then 1 else 0)
  {
    if calls != [] {
      assert (calls + [c])[1..] == calls[1..] + [c];
      WaitingAppend(calls[1..], c);
    }
  }

  lemma StepPreservesInvariant(w: World, step: Step, decode: string -> Claims)
    requires Invariant(w)
    ensures Invariant(Apply(w, step, decode))
  {
    match step
    case Start(caller) =>
      WaitingAppend(w.calls, Begin(w.session, caller));
    case FirstReply(i, reply) =>
      if i < |w.calls| {
        var (s', c') := OnFirstReply(w.session, w.calls[i], reply);
        WaitingUpdate(w.calls, i, c');
        assert WellFormed(c');
      }
    case RefreshReply(reply) =>
    case RetryReply(i, reply) =>
      if i < |w.calls| {
        var c' := OnRetryReply(w.calls[i], reply);
        WaitingUpdate(w.calls, i, c');
        assert WellFormed(c');
      }
    case ProactiveCheck(nowMs) =>
  }

  /** In every interleaving, every call sends at most two requests: the
      first one and at most one replay. */
  lemma {:induction false} AtMostOneReplay(w: World, steps: seq<Step>, decode: string -> Claims)
    requires Invariant(w)
    ensures Invariant(Run(w, steps, decode))
    ensures forall i :: 0 <= i < |Run(w, steps, decode).calls| ==> |Run(w, steps, decode).calls[i].sent| <= 2
    decreases |steps|
  {
    if steps != [] {
      StepPreservesInvariant(w, steps[0], decode);
      AtMostOneReplay(Apply(w, steps[0], decode), steps[1..], decode);
    }
  }

  /** One step sends at most one refresh request, and only when it moves
      the handle from absent to pending. */
  lemma StepRefreshCalls(w: World, step: Step, decode: string -> Claims)
    ensures var w' := Apply(w, step, decode);
      && w'.session.refreshCalls <= w.session.refreshCalls + 1
      && (w'.session.refreshCalls == w.session.refreshCalls + 1 ==> !w.session.inFlight && w'.session.inFlight)
  {
  }

  /** Single flight: while a refresh is pending, no interleaving of new
      calls, first replies, replays and proactive checks sends another
      refresh request, and the same refresh stays pending. */
  lemma {:induction false} NoSecondRefreshWhilePending(w: World, steps: seq<Step>, decode: string -> Claims)
    requires w.session.inFlight
    requires forall k :: 0 <= k < |steps| ==> !steps[k].RefreshReply?
    ensures Run(w, steps, decode).session.inFlight
    ensures Run(w, steps, decode).session.refreshCalls == w.session.refreshCalls
    decreases |steps|
  {
    if steps != [] {
      StepRefreshCalls(w, steps[0], decode);
      NoSecondRefreshWhilePending(Apply(w, steps[0], decode), steps[1..], decode);
    }
  }

  /** The first replies, with statuses `statuses[i]`, delivered to calls
      0, 1, ... in order. */
  function FirstReplies(statuses: seq<int>): (steps: seq<Step>)
    ensures |steps| == |statuses|
    ensures forall i :: 0 <= i < |statuses| ==> steps[i] == FirstReply(i, StatusReply(statuses[i]))
  {
    seq(|statuses|, i requires 0 <= i < |statuses| => FirstReply(i, StatusReply(statuses[i])))
  }

  predicate AllAwaitFirst(calls: seq<Call>) {
    forall i :: 0 <= i < |calls| ==> calls[i].phase == AwaitFirst
  }

  predicate AllRejected(statuses: seq<int>) {
    forall i :: 0 <= i < |statuses| ==> AuthRejected(statuses[i])
  }

  /** The shape of the world after the first `k` of the rejections: one
      refresh is pending (if any call was rejected), the first `k` calls
      wait on it, the others still wait for their first reply, and storage
      is untouched. */
  predicate JoinedUpTo(w: World, w': World, k: nat) {
    && w'.session == (if k == 0 then w.session
                      else w.session.(inFlight := true, refreshCalls := w.session.refreshCalls + 1))
    && |w'.calls| == |w.calls|
    && (forall i :: 0 <= i < k && i < |w.calls| ==> w'.calls[i] == w.calls[i].(phase := AwaitRefresh))
    && (forall i :: k <= i < |w.calls| ==> w'.calls[i] == w.calls[i])
  }

  /** One more rejection joins the pending refresh, or starts it when it
      is the first. */
  lemma JoinOneMore(w: World, prev: World, k: nat, reply: Response, decode: string -> Claims)
    requires 0 < k <= |w.calls| && AllAwaitFirst(w.calls) && Refused(reply)
    requires !w.session.inFlight && HasToken(w.session)
    requires JoinedUpTo(w, prev, k - 1)
    ensures JoinedUpTo(w, Apply(prev, FirstReply(k - 1, reply), decode), k)
  {
    assert prev.calls[k - 1].phase == AwaitFirst;
    var (s', c') := OnFirstReply(prev.session, prev.calls[k - 1], reply);
    assert c' == prev.calls[k - 1].(phase := AwaitRefresh);
  }

  /** After the first `k` of the rejections the world has the shape
      `JoinedUpTo` describes. */
  lemma {:induction false} RejectionsJoinOneRefresh(w: World, statuses: seq<int>, k: nat, decode: string -> Claims)
    requires |statuses| == |w.calls| && k <= |statuses|
    requires AllRejected(statuses) && AllAwaitFirst(w.calls)
    requires !w.session.inFlight && HasToken(w.session)
    ensures JoinedUpTo(w, Run(w, FirstReplies(statuses)[..k], decode), k)
  {
    var steps := FirstReplies(statuses);
    if k > 0 {
      RejectionsJoinOneRefresh(w, statuses, k - 1, decode);
      assert steps[..k] == steps[..k - 1] + [steps[k - 1]];
      RunSnoc(w, steps[..k - 1], steps[k - 1], decode);
      JoinOneMore(w, Run(w, steps[..k - 1], decode), k, StatusReply(statuses[k - 1]), decode);
    }
  }

  lemma {:induction false} AllWaiting(calls: seq<Call>)
    requires forall i :: 0 <= i < |calls| ==> calls[i].phase.AwaitRefresh?
    ensures Waiting(calls) == |calls|
  {
    if calls != [] {
      AllWaiting(calls[1..]);
    }
  }

  /** The world `w'` after the refresh that all of `w`'s calls waited on
      settled with `reply`: one refresh request in all, the handle
      cleared, and every call resumed with the one outcome. A renewal
      stores the token once, announces it once, and has every call replay
      with it. A rejected refresh logs out once in the coordinator and once
      more in each of the N calls (N + 1 `userLoggedOut` events); a
      transient failure logs out N times. */
  predicate SharedOutcome(w: World, w': World, reply: Reply<AuthBody>) {
    var n := |w.calls|;
    && |w'.calls| == n
    && w'.session.refreshCalls == w.session.refreshCalls + 1
    && !w'.session.inFlight
    && (Classify(reply).Renewed? ==>
         var t := Classify(reply).token;
         && Get(w'.session.store, Token) == Some(t)
         && w'.session.events == w.session.events + [TokenRefreshed(t)]
         && forall i :: 0 <= i < n ==>
              && w'.calls[i].phase == AwaitRetry
              && w'.calls[i].sent == w.calls[i].sent + [RetryHeaders(w.calls[i].headers, t)])
    && (Classify(reply).Rejected? ==>
         && w'.session.events == w.session.events + [UserLoggedOut] + Repeat(UserLoggedOut, n)
         && Get(w'.session.store, Token) == None
         && forall i :: 0 <= i < n ==> w'.calls[i].phase == Failed(AuthFailedMessage))
    && (Classify(reply).Transient? ==>
         && w'.session.events == w.session.events + Repeat(UserLoggedOut, n)
         && Get(w'.session.store, Token) == None
         && forall i :: 0 <= i < n ==> w'.calls[i].phase == Failed(AuthFailedMessage))
  }

  /** Once every call waits on the one pending refresh, its reply gives
      all of them the same outcome. */
  lemma SettleShared(w: World, mid: World, reply: Reply<AuthBody>, decode: string -> Claims)
    requires |w.calls| >= 1 && AllAwaitFirst(w.calls)
    requires !w.session.inFlight && HasToken(w.session)
    requires JoinedUpTo(w, mid, |w.calls|)
    ensures SharedOutcome(w, Apply(mid, RefreshReply(reply), decode), reply)
  {
    AllWaiting(mid.calls);
  }

  /** N overlapping calls that are all refused with 401/403 cause exactly
      one refresh request and all resume with its one outcome. */
  lemma ManyCallersOneRefresh(w: World, statuses: seq<int>, reply: Reply<AuthBody>, decode: string -> Claims)
    requires |w.calls| >= 1 && |statuses| == |w.calls|
    requires AllRejected(statuses) && AllAwaitFirst(w.calls)
    requires !w.session.inFlight && HasToken(w.session)
    ensures SharedOutcome(w, Run(w, FirstReplies(statuses) + [RefreshReply(reply)], decode), reply)
  {
    var steps := FirstReplies(statuses);
    var n := |w.calls|;
    RejectionsJoinOneRefresh(w, statuses, n, decode);
    assert steps[..n] == steps;
    RunSnoc(w, steps, RefreshReply(reply), decode);
    SettleShared(w, Run(w, steps, decode), reply, decode);
  }
}

=== FILE: journeys.dfy ===
/** How the pages and the coordinator act on the shared storage slots,
    across more than one of them. */
module Journeys {
  import opened Wrappers
  import opened JsString
  import opened Http
  import opened Session
  import opened Profile
  import opened Login
  import opened Register
  import opened ApiRequest
  import opened Admin
  import opened Navbar

  /** After either logout the admin gate sends the user to the login page
      without asking for the profile. */
  lemma LogoutLocksAdmin(s: State, nav: NavState, first: Response, refreshReply: Reply<AuthBody>, retry: Response, body: Option<ProfileBody>)
    ensures var g := CheckAuth(Logout(s), first, refreshReply, retry, body);
      !g.authorized && !g.profileRequested && g.session.target == Some(LoginPath)
    ensures var g := CheckAuth(HandleLogout(s, nav).0, first, refreshReply, retry, body);
      !g.authorized && !g.profileRequested && g.session.target == Some(LoginPath)
  {
  }

  /** The staff flag the navigation bar caches decides the admin gate with
      no further request, and agrees with the Admin link. */
  lemma NavbarProfileDecidesAdmin(s: State, nav: NavState, reply: Reply<ProfileBody>,
                                  first: Response, refreshReply: Reply<AuthBody>, retry: Response, body: Option<ProfileBody>)
    requires HasToken(s) && reply.Responded? && Ok(reply.status)
    ensures var (s', nav') := FetchProfile(s, nav, reply);
      var g := CheckAuth(s', first, refreshReply, retry, body);
      !g.profileRequested && (g.authorized <==> ShowAdminLink(nav'))
  {
  }

  /** The coordinator's logout keeps the cached staff flag, so the next
      account to log in on this browser passes the admin gate on the
      previous account's flag, without a profile request. */
  lemma StaleStaffFlagAfterCoordinatorLogout(s: State, login: Reply<AuthBody>,
                                             first: Response, refreshReply: Reply<AuthBody>, retry: Response, body: Option<ProfileBody>)
    requires Get(s.store, IsStaff) == Some("true")
    requires login.Responded? && Ok(login.status) && Truthy(NestedAccess(login.body))
    ensures var (s', _) := LoginSubmit(Logout(s), login);
      var g := CheckAuth(s', first, refreshReply, retry, body);
      g.authorized && !g.profileRequested
  {
  }

  /** Registration clears an older refresh token; login keeps it when the
      reply carries none. */
  lemma RefreshTokenAfterLoginAndRegister(s: State, password: string, confirm: string, error: string, reply: Reply<AuthBody>)
    requires reply.Responded? && Ok(reply.status) && Truthy(NestedAccess(reply.body)) && !Truthy(NestedRefresh(reply.body))
    requires IsPasswordValid(password) && DoPasswordsMatch(password, confirm)
    ensures Get(LoginSubmit(s, reply).0.store, RefreshToken) == Get(s.store, RefreshToken)
    ensures Get(RegisterSubmit(s, password, confirm, error, reply).session.store, RefreshToken) == None
    ensures Get(LoginSubmit(s, reply).0.store, Token) == Get(RegisterSubmit(s, password, confirm, error, reply).session.store, Token)
  {
  }
}

=== FILE: js_number.dfy ===
/** ECMAScript `parseInt(string)` with no radix argument, over exact
    integers: leading whitespace is skipped, one sign is read, a `0x`/`0X`
    prefix selects base 16, and the longest run of digits that follows is
    the value; no digits at all gives NaN, here `None`. */
module JsNumber {
  import opened Wrappers
  import opened JsString

  /** The bases `parseInt` picks by itself. */
  predicate IsRadix(radix: nat) {
    radix == 10 || radix == 16
  }

  predicate IsDecimalDigit(c: char) {
    '0' <= c <= '9'
  }

  predicate IsDigitIn(c: char, radix: nat) {
    if radix == 16 then IsDecimalDigit(c) || ('a' <= c <= 'f') || ('A' <= c <= 'F')
    else IsDecimalDigit(c)
  }

  function DigitValue(c: char): (d: nat)
    ensures IsDecimalDigit(c) ==> d < 10
    ensures IsDigitIn(c, 16) ==> d < 16
  {
    if IsDecimalDigit(c) then c as int - '0' as int
    else if 'a' <= c <= 'f' then c as int - 'a' as int + 10
    else if 'A' <= c <= 'F' then c as int - 'A' as int + 10
    else 0
  }

  predicate AllDigits(s: string, radix: nat) {
    forall i :: 0 <= i < |s| ==> IsDigitIn(s[i], radix)
  }

  /** The longest prefix of `s` made of digits of `radix`. */
  function DigitPrefix(s: string, radix: nat): (p: string)
    ensures |p| <= |s| && p == s[..|p|]
    ensures AllDigits(p, radix)
    ensures |p| == |s| || !IsDigitIn(s[|p|], radix)
  {
    if |s| > 0 && IsDigitIn(s[0], radix) then
      var p := [s[0]] + DigitPrefix(s[1..], radix);
      assert s[..|p|] == [s[0]] + s[1..][..|p| - 1];
      p
    else
      []
  }

  /** The positional value of a digit string, most significant digit first. */
  function DigitsValue(ds: string, radix: nat): nat {
    if ds == [] then 0
    else DigitsValue(ds[..|ds| - 1], radix) * radix + DigitValue(ds[|ds| - 1])
  }

  /** The sign and the digits `parseInt` reads after leading whitespace:
      (negative, radix, rest of the string after sign and radix prefix). */
  function SplitNumeral(s: string): (r: (bool, nat, string))
    ensures IsRadix(r.1)
  {
    var t := TrimStart(s);
    var negative := |t| > 0 && t[0] == '-';
    var u := if |t| > 0 && (t[0] == '-' || t[0] == '+') then t[1..] else t;
    if |u| >= 2 && u[0] == '0' && (u[1] == 'x' || u[1] == 'X') then (negative, 16, u[2..])
    else (negative, 10, u)
  }

  /** `parseInt(s)`; `None` stands for NaN. */
  function ParseInt(s: string): (r: Option<int>)
    ensures r.None? <==> DigitPrefix(SplitNumeral(s).2, SplitNumeral(s).1) == []
  {
    var (negative, radix, body) := SplitNumeral(s);
    var digits := DigitPrefix(body, radix);
    var magnitude: int := DigitsValue(digits, radix);
    if digits == [] then None
    else if negative then Some(-magnitude)
    else Some(magnitude)
  }

  /** The decimal numeral of `n`, without leading zeros. */
  function DecimalString(n: nat): (s: string)
    ensures |s| > 0 && AllDigits(s, 10)
    ensures n > 0 ==> s[0] != '0'
  {
    var d := ['0' + (n % 10) as char];
    if n < 10 then d
    else
      var s := DecimalString(n / 10) + d;
      assert s[0] == DecimalString(n / 10)[0];
      s
  }

  /** Reading a numeral back gives the number it was written from. */
  lemma {:induction false} DigitsValueOfDecimalString(n: nat)
    ensures DigitsValue(DecimalString(n), 10) == n
  {
    var s := DecimalString(n);
    if n >= 10 {
      assert s[..|s| - 1] == DecimalString(n / 10);
      DigitsValueOfDecimalString(n / 10);
    }
  }

  /** A digit run followed by a non-digit is exactly the run `DigitPrefix`
      takes. */
  lemma {:induction false} DigitPrefixOfDigitsThenStop(d: string, rest: string, radix: nat)
    requires AllDigits(d, radix)
    requires rest == [] || !IsDigitIn(rest[0], radix)
    ensures DigitPrefix(d + rest, radix) == d
  {
    if d != [] {
      assert (d + rest)[1..] == d[1..] + rest;
      DigitPrefixOfDigitsThenStop(d[1..], rest, radix);
    }
  }

  /** Prefix semantics: whitespace, then a run of decimal digits, then
      anything that does not continue the run, parses as the run's value,
      leading zeros included. The one exclusion is a lone 0 followed by
      `x` or `X`, which is the hexadecimal prefix. */
  lemma ParseIntReadsLeadingDigits(ws: string, d: string, rest: string)
    requires AllSpace(ws)
    requires |d| > 0 && AllDigits(d, 10)
    requires rest == [] || !IsDecimalDigit(rest[0])
    requires !(d == "0" && rest != [] && (rest[0] == 'x' || rest[0] == 'X'))
    ensures ParseInt(ws + d + rest) == Some(DigitsValue(d, 10))
  {
    var t := d + rest;
    assert ws + d + rest == ws + t;
    assert t[0] == d[0];
    assert !(|t| >= 2 && t[0] == '0' && (t[1] == 'x' || t[1] == 'X')) by {
      if |t| >= 2 && t[0] == '0' {
        if |d| >= 2 {
          assert t[1] == d[1];
        } else {
          assert d == "0" && t[1] == rest[0];
        }
      }
    }
    assert !IsJsSpace(t[0]);
    TrimStartSkips(ws, t);
    SplitNumeralOfUnsignedDecimal(ws + t, t);
    DigitPrefixOfDigitsThenStop(d, rest, 10);
  }

  /** The same for the numeral of a positive `n`: this is how "12abc" is
      read as 12. */
  lemma ParseIntReadsLeadingNumeral(ws: string, n: nat, rest: string)
    requires AllSpace(ws) && n > 0
    requires rest == [] || !IsDecimalDigit(rest[0])
    ensures ParseInt(ws + DecimalString(n) + rest) == Some(n)
  {
    ParseIntReadsLeadingDigits(ws, DecimalString(n), rest);
    DigitsValueOfDecimalString(n);
  }

  /** A string whose first non-whitespace character is a digit, and which
      does not start with a `0x`/`0X` prefix, is read in base 10 with no
      sign. */
  lemma SplitNumeralOfUnsignedDecimal(s: string, t: string)
    requires TrimStart(s) == t
    requires |t| > 0 && IsDecimalDigit(t[0])
    requires !(|t| >= 2 && t[0] == '0' && (t[1] == 'x' || t[1] == 'X'))
    ensures SplitNumeral(s) == (false, 10, t)
  {
  }

  /** The inverse direction of `DecimalString`. */
  lemma {:induction false} ParseIntDecimalRoundTrip(n: nat)
    ensures ParseInt(DecimalString(n)) == Some(n)
  {
    if n == 0 {
      ParseIntZero();
    } else {
      ParseIntPositive(n);
    }
  }

  lemma ParseIntPositive(n: nat)
    requires n > 0
    ensures ParseInt(DecimalString(n)) == Some(n)
  {
    var d := DecimalString(n);
    var e: string := [];
    ParseIntReadsLeadingNumeral(e, n, e);
    assert e + d + e == d;
  }

  lemma ParseIntZero()
    ensures ParseInt(DecimalString(0)) == Some(0)
  {
    var d := DecimalString(0);
    assert d == "0";
    TrimStartSkips([], d);
    assert [] + d == d;
    SplitNumeralOfUnsignedDecimal(d, d);
    DigitPrefixOfDigitsThenStop(d, [], 10);
    assert d + [] == d;
    DigitsValueOfDecimalString(0);
  }

  /** A leading minus sign negates the value. */
  lemma ParseIntNegative(n: nat)
    requires n > 0
    ensures ParseInt("-" + DecimalString(n)) == Some(-(n as int))
  {
    var d := DecimalString(n);
    var s := "-" + d;
    assert SplitNumeral(s) == (true, 10, d) by {
      assert s[0] == '-' && s[1..] == d && d[0] != '0';
      assert !IsJsSpace(s[0]);
      TrimStartSkips([], s);
      assert [] + s == s;
    }
    assert DigitPrefix(d, 10) == d by {
      DigitPrefixOfDigitsThenStop(d, [], 10);
      assert d + [] == d;
    }
    DigitsValueOfDecimalString(n);
  }

  /** When the first non-whitespace character is neither a sign nor a
      digit, `parseInt` gives NaN. */
  lemma ParseIntNaN(s: string)
    requires TrimStart(s) == [] || (TrimStart(s)[0] !in "+-" && !IsDecimalDigit(TrimStart(s)[0]))
    ensures ParseInt(s) == None
  {
  }

  /** Two decimal digits followed by a non-digit or the end read as a
      two-digit number. */
  lemma ParseIntTwoDigits(s: string)
    requires |s| >= 2 && IsDecimalDigit(s[0]) && IsDecimalDigit(s[1])
    requires |s| == 2 || !IsDecimalDigit(s[2])
    ensures ParseInt(s) == Some(DigitValue(s[0]) * 10 + DigitValue(s[1]))
  {
    var e: string := [];
    var d := s[..2];
    var rest := s[2..];
    assert ParseInt(e + d + rest) == Some(DigitsValue(d, 10)) by {
      ParseIntReadsLeadingDigits(e, d, rest);
    }
    assert DigitsValue(d, 10) == DigitValue(s[0]) * 10 + DigitValue(s[1]) by {
      assert d[..1][..0] == [];
      assert DigitsValue(d[..1], 10) == DigitValue(s[0]);
    }
    assert e + d + rest == s by {
      assert e + d == d;
      assert d + rest == s;
    }
  }

  /** Leading zeros are read as decimal digits: "012abc" reads as 12. */
  lemma ParseIntLeadingZero(s: string)
    requires s == "012abc"
    ensures ParseInt(s) == Some(12)
  {
    var e: string := [];
    var d := s[..3];
    var rest := s[3..];
    assert e + d + rest == s by {
      assert e + d == d;
      assert d + rest == s;
    }
    assert d[0] == '0' && d[1] == '1' && d[2] == '2';
    ParseIntReadsLeadingDigits(e, d, rest);
    assert DigitsValue(d, 10) == 12 by {
      assert d[..2][..1][..0] == [];
      assert DigitsValue(d[..2][..1], 10) == 0;
      assert DigitsValue(d[..2], 10) == 1;
    }
  }

  /** The example the price field relies on: "12abc" reads as 12. */
  lemma ParseIntTwelveAbc(s: string)
    requires s == "12abc"
    ensures ParseInt(s) == Some(12)
  {
    ParseIntTwoDigits(s);
  }

  /** "0x1A" is read in base 16 as 26. */
  lemma ParseIntHexPrefix(s: string)
    requires s == "0x1A"
    ensures ParseInt(s) == Some(26)
  {
    assert !IsJsSpace(s[0]);
    TrimStartSkips([], s);
    assert [] + s == s;
    var hex := s[2..];
    assert SplitNumeral(s) == (false, 16, hex);
    assert AllDigits(hex, 16);
    DigitPrefixOfDigitsThenStop(hex, [], 16);
    assert hex + [] == hex;
    assert hex[..1][..0] == [];
    assert DigitsValue(hex[..1], 16) == 1;
  }
}

=== FILE: js_string.dfy ===
/** The parts of ECMAScript string semantics the session code leans on:
    truthiness of an optional string, `||` defaulting, `trim`, and `length`
    measured in UTF-16 code units. */
module JsString {
  import opened Wrappers

  /** A JavaScript value that is either a string or `null`/`undefined` is
      truthy exactly when it is a non-empty string. */
  predicate Truthy(v: Option<string>) {
    v.Some? && v.value != ""
  }

  /** `v || fallback` where `v` is an optional string. */
  function OrDefault(v: Option<string>, fallback: string): (r: string)
    ensures Truthy(v) ==> r == v.value
    ensures !Truthy(v) ==> r == fallback
  {
    if Truthy(v) then v.value else fallback
  }

  /** `a || b` on two optional strings, as far as the truthiness of the
      result is concerned: the first truthy operand, if any. */
  function FirstTruthy(a: Option<string>, b: Option<string>): (r: Option<string>)
    ensures Truthy(r) <==> Truthy(a) || Truthy(b)
    ensures Truthy(r) ==> r == a || r == b
    ensures Truthy(a) ==> r == a
  {
    if Truthy(a) then a else if Truthy(b) then b else None
  }

  /** The code points ECMAScript classes as WhiteSpace or LineTerminator:
      the characters `String.prototype.trim` removes and `parseInt` skips. */
  predicate IsJsSpace(c: char) {
    || c == '\U{0009}' || c == '\U{000B}' || c == '\U{000C}' || c == '\U{0020}'
    || c == '\U{00A0}' || c == '\U{FEFF}' || c == '\U{1680}'
    || ('\U{2000}' <= c <= '\U{200A}')
    || c == '\U{202F}' || c == '\U{205F}' || c == '\U{3000}'
    || c == '\U{000A}' || c == '\U{000D}' || c == '\U{2028}' || c == '\U{2029}'
  }

  predicate AllSpace(s: string) {
    forall i :: 0 <= i < |s| ==> IsJsSpace(s[i])
  }

  /** Drops the leading whitespace: the result is a suffix of `s`, what was
      dropped is whitespace, and the result does not start with whitespace. */
  function TrimStart(s: string): (r: string)
    ensures |r| <= |s| && r == s[|s| - |r|..]
    ensures AllSpace(s[..|s| - |r|])
    ensures r == [] || !IsJsSpace(r[0])
  {
    if |s| > 0 && IsJsSpace(s[0]) then
      var r := TrimStart(s[1..]);
      assert s[..|s| - |r|] == [s[0]] + s[1..][..|s| - 1 - |r|];
      AllSpaceConcat([s[0]], s[1..][..|s| - 1 - |r|]);
      r
    else
      s
  }

  /** Drops the trailing whitespace: the result is a prefix of `s`, what was
      dropped is whitespace, and the result does not end with whitespace. */
  function TrimEnd(s: string): (r: string)
    ensures |r| <= |s| && r == s[..|r|]
    ensures AllSpace(s[|r|..])
    ensures r == [] || !IsJsSpace(r[|r| - 1])
  {
    if |s| > 0 && IsJsSpace(s[|s| - 1]) then
      var r := TrimEnd(s[..|s| - 1]);
      assert s[|r|..] == s[..|s| - 1][|r|..] + [s[|s| - 1]];
      AllSpaceConcat(s[..|s| - 1][|r|..], [s[|s| - 1]]);
      r
    else
      s
  }

  /** `String.prototype.trim`: the infix of `s` between its leading and its
      trailing whitespace. */
  function Trim(s: string): (r: string)
    ensures |r| <= |s|
    ensures r == [] || (!IsJsSpace(r[0]) && !IsJsSpace(r[|r| - 1]))
    ensures r == [] <==> AllSpace(s)
    ensures exists i, j :: 0 <= i <= j <= |s| && r == s[i..j] && AllSpace(s[..i]) && AllSpace(s[j..])
  {
    var t := TrimStart(s);
    var r := TrimEnd(t);
    TrimPieces(s, t, r);
    r
  }

  /** What `Trim` concludes from its two halves: `t` is `s` without its
      leading whitespace and `r` is `t` without its trailing whitespace. */
  lemma TrimPieces(s: string, t: string, r: string)
    requires |t| <= |s| && t == s[|s| - |t|..] && AllSpace(s[..|s| - |t|])
    requires t == [] || !IsJsSpace(t[0])
    requires |r| <= |t| && r == t[..|r|] && AllSpace(t[|r|..])
    requires r == [] || !IsJsSpace(r[|r| - 1])
    ensures r == [] || (!IsJsSpace(r[0]) && !IsJsSpace(r[|r| - 1]))
    ensures r == [] <==> AllSpace(s)
    ensures var i := |s| - |t|;
      r == s[i..i + |r|] && AllSpace(s[..i]) && AllSpace(s[i + |r|..])
  {
    var i := |s| - |t|;
    assert s[i + |r|..] == t[|r|..];
    if r == [] {
      assert s == s[..i] + t;
      AllSpaceConcat(s[..i], t);
    } else {
      assert r[0] == t[0] == s[i];
    }
  }

  lemma AllSpaceConcat(a: string, b: string)
    requires AllSpace(a) && AllSpace(b)
    ensures AllSpace(a + b)
  {
  }

  /** Whitespace before a string that does not itself start with whitespace
      is exactly what `TrimStart` removes. */
  lemma {:induction false} TrimStartSkips(ws: string, x: string)
    requires AllSpace(ws)
    requires x == [] || !IsJsSpace(x[0])
    ensures TrimStart(ws + x) == x
  {
    if ws != [] {
      assert (ws + x)[1..] == ws[1..] + x;
      TrimStartSkips(ws[1..], x);
    }
  }

  /** Trimming twice is trimming once. */
  lemma TrimIdempotent(s: string)
    ensures Trim(Trim(s)) == Trim(s)
  {
    var r := Trim(s);
    if r != [] {
      assert TrimStart(r) == r;
      assert TrimEnd(r) == r;
    }
  }

  /** Number of UTF-16 code units one code point occupies. */
  function CodeUnits(c: char): nat {
    if c as int > 0xFFFF then 2 else 1
  }

  /** JavaScript's `length` of a string: its UTF-16 code-unit count, which
      counts a code point outside the Basic Multilingual Plane twice. */
  function Utf16Length(s: string): (n: nat)
    ensures |s| <= n <= 2 * |s|
    ensures n == |s| <==> forall i :: 0 <= i < |s| ==> s[i] as int <= 0xFFFF
    ensures n == 2 * |s| <==> forall i :: 0 <= i < |s| ==> s[i] as int > 0xFFFF
  {
    if s == [] then 0
    else
      var n := Utf16Length(s[..|s| - 1]) + CodeUnits(s[|s| - 1]);
      assert forall i :: 0 <= i < |s| - 1 ==> s[..|s| - 1][i] == s[i];
      n
  }

  /** Code units add up over concatenation. */
  lemma {:induction false} Utf16LengthAppend(a: string, b: string)
    ensures Utf16Length(a + b) == Utf16Length(a) + Utf16Length(b)
  {
    if b != [] {
      assert (a + b)[..|a + b| - 1] == a + b[..|b| - 1];
      Utf16LengthAppend(a, b[..|b| - 1]);
    } else {
      assert a + b == a;
    }
  }
}

=== FILE: login.dfy ===
/** The login form's submit handler (`handleSubmit` of the login page):
    what it writes to storage, where it navigates, which error it shows. */
module Login {
  import opened Wrappers
  import opened JsString
  import opened Http
  import opened Session

  const MissingTokenError := "Token tidak ditemukan dalam respons"
  const BadCredentialsError := "Email atau kata sandi salah"
  const GenericError := "Terjadi kesalahan. Silakan coba lagi."

  /** The session after the submit, and the error shown (cleared to "" at
      the start of the submit). */
  function LoginSubmit(s: State, reply: Reply<AuthBody>): (r: (State, string))
    ensures r.0.events == s.events && r.0.inFlight == s.inFlight && r.0.refreshCalls == s.refreshCalls
    ensures reply.Threw? ==> r == (s, GenericError)
    ensures reply.Responded? && !Ok(reply.status) ==>
      r == (s, OrDefault(reply.body.message, BadCredentialsError))
    ensures reply.Responded? && Ok(reply.status) && Truthy(NestedAccess(reply.body)) ==>
      && Get(r.0.store, Token) == NestedAccess(reply.body)
      && Get(r.0.store, RefreshToken)
           == (if Truthy(NestedRefresh(reply.body)) then NestedRefresh(reply.body) else Get(s.store, RefreshToken))
      && Get(r.0.store, IsStaff) == Get(s.store, IsStaff)
      && r.0.target == Some(HomePath)
      && r.1 == ""
    ensures reply.Responded? && Ok(reply.status) && !Truthy(NestedAccess(reply.body)) ==>
      && Get(r.0.store, Token) == None
      && OthersUnchanged(s.store, r.0.store, {Token})
      && r.0.target == s.target
      && r.1 == MissingTokenError
  {
    match reply
    case Threw => (s, GenericError)
    case Responded(status, body) =>
      if !Ok(status) then (s, OrDefault(body.message, BadCredentialsError))
      else
        var cleared := s.store - {Token};
        if Truthy(NestedAccess(body)) then
          var withToken := cleared[Token := NestedAccess(body).value];
          var store := if Truthy(NestedRefresh(body)) then withToken[RefreshToken := NestedRefresh(body).value] else withToken;
          (s.(store := store, target := Some(HomePath)), "")
        else
          (s.(store := cleared), MissingTokenError)
  }

  /** A successful login leaves a usable token: a later 401/403 can refresh. */
  lemma LoginYieldsToken(s: State, reply: Reply<AuthBody>)
    requires reply.Responded? && Ok(reply.status) && Truthy(NestedAccess(reply.body))
    ensures HasToken(LoginSubmit(s, reply).0)
  {
  }
}

=== FILE: navbar.dfy ===
/** The navigation bar: the profile fetch on mount, its own logout, and
    which links it shows. */
module Navbar {
  import opened Wrappers
    import opened Http
  import opened Session
  import opened Profile

  /** The component state: the profile shown, whether the user counts as
      logged in, and whether the logout confirmation dialog is open. */
  datatype NavState = NavState(profile: Option<Profile>, loggedIn: bool, confirmOpen: bool)

  /** The bar as mounted: no profile, logged out, dialog closed. */
  const Initial := NavState(None, false, false)

  /** A logged-in bar always has a profile to show. */
  predicate Consistent(nav: NavState) {
    nav.loggedIn ==> nav.profile.Some?
  }

  /** `fetchProfile`: with a token, a 2xx reply sets the normalised profile,
      marks the user logged in and caches the staff flag; anything else
      changes nothing. The fetch is a plain one, not the request wrapper. */
  function FetchProfile(s: State, nav: NavState, reply: Reply<ProfileBody>): (r: (State, NavState))
    ensures !HasToken(s) || !(reply.Responded? && Ok(reply.status)) ==> r == (s, nav)
    ensures HasToken(s) && reply.Responded? && Ok(reply.status) ==>
      && r.1 == nav.(profile := Some(Normalize(reply.body)), loggedIn := true)
      && Get(r.0.store, IsStaff) == Some(StaffFlag(Normalize(reply.body).isStaff))
      && OthersUnchanged(s.store, r.0.store, {IsStaff})
      && r.0.events == s.events && r.0.target == s.target
      && r.0.inFlight == s.inFlight && r.0.refreshCalls == s.refreshCalls
    ensures Consistent(nav) ==> Consistent(r.1)
  {
    if !HasToken(s) then (s, nav)
    else
      match reply
      case Responded(status, body) =>
        if Ok(status) then
          var p := Normalize(body);
          (s.(store := s.store[IsStaff := StaffFlag(p.isStaff)]), nav.(profile := Some(p), loggedIn := true))
        else (s, nav)
      case Threw => (s, nav)
  }

  /** `handleLogoutClick`. */
  function OpenLogoutConfirm(nav: NavState): (nav': NavState)
    ensures nav'.confirmOpen && nav'.profile == nav.profile && nav'.loggedIn == nav.loggedIn
  {
    nav.(confirmOpen := true)
  }

  /** `handleLogout`: unlike the coordinator's logout it also drops the
      staff flag, dispatches no event, and still keeps the refresh token. */
  function HandleLogout(s: State, nav: NavState): (r: (State, NavState))
    ensures Get(r.0.store, Token) == None && Get(r.0.store, IsStaff) == None
    ensures Get(r.0.store, RefreshToken) == Get(s.store, RefreshToken)
    ensures r.1 == Initial && Consistent(r.1)
    ensures r.0.target == Some(LoginPath)
    ensures r.0.events == s.events && r.0.inFlight == s.inFlight && r.0.refreshCalls == s.refreshCalls
  {
    (s.(store := s.store - {Token, IsStaff}, target := Some(LoginPath)), Initial)
  }

  /** The "API Keys" link. */
  function ShowApiKeysLink(nav: NavState): (shown: bool)
    ensures shown && Consistent(nav) ==> nav.profile.Some?
  {
    nav.loggedIn
  }

  /** The "Admin" link: `isLoggedIn && userProfile?.is_staff`. */
  function ShowAdminLink(nav: NavState): (shown: bool)
    ensures shown ==> ShowApiKeysLink(nav)
    ensures shown ==> nav.profile.Some? && nav.profile.value.isStaff
    ensures nav.profile.None? || !nav.profile.value.isStaff ==> !shown
  {
    nav.loggedIn && nav.profile.Some? && nav.profile.value.isStaff
  }

  /** The Admin link never shows without the API Keys link, and after a
      2xx profile fetch it shows exactly when the cached flag says "true". */
  lemma LinksAfterFetch(s: State, nav: NavState, reply: Reply<ProfileBody>)
    requires HasToken(s) && reply.Responded? && Ok(reply.status)
    ensures var (s', nav') := FetchProfile(s, nav, reply);
      && ShowApiKeysLink(nav')
      && (ShowAdminLink(nav') <==> Get(s'.store, IsStaff) == Some("true"))
  {
  }

  lemma AdminLinkNeedsApiKeysLink(nav: NavState)
    ensures ShowAdminLink(nav) ==> ShowApiKeysLink(nav)
  {
  }
}

=== FILE: profile.dfy ===
/** The user profile returned by the profile endpoint, as the admin page
    and the navigation bar normalise it. */
module Profile {
  import opened Wrappers

  /** `data.data` of the profile endpoint; every field may be absent. */
  datatype RawProfile = RawProfile(name: Option<string>, email: Option<string>, saldo: Option<int>, isStaff: Option<bool>)

  datatype ProfileBody = ProfileBody(data: Option<RawProfile>)

  datatype Profile = Profile(name: string, email: string, saldo: int, isStaff: bool)

  /** `data.data?.x || default` for each field: an absent (or empty, zero,
      false) field takes its default. */
  function Normalize(body: ProfileBody): (p: Profile)
    ensures body.data.None? ==> p == Profile("", "", 0, false)
    ensures p.isStaff <==> body.data.Some? && body.data.value.isStaff == Some(true)
    ensures body.data.Some? && body.data.value.name.Some? ==> p.name == body.data.value.name.value
    ensures body.data.Some? && body.data.value.saldo.Some? ==> p.saldo == body.data.value.saldo.value
    ensures body.data.Some? && body.data.value.email.Some? ==> p.email == body.data.value.email.value
    ensures body.data.None? || body.data.value.name.None? ==> p.name == ""
    ensures body.data.None? || body.data.value.email.None? ==> p.email == ""
    ensures body.data.None? || body.data.value.saldo.None? ==> p.saldo == 0
  {
    match body.data
    case None => Profile("", "", 0, false)
    case Some(raw) => Profile(raw.name.GetOr(""), raw.email.GetOr(""), raw.saldo.GetOr(0), raw.isStaff.GetOr(false))
  }

  /** The raw form of a profile with every field present. */
  function Raw(p: Profile): ProfileBody {
    ProfileBody(Some(RawProfile(Some(p.name), Some(p.email), Some(p.saldo), Some(p.isStaff))))
  }

  /** Normalising loses nothing the profile had: a body carrying every
      field of `p` normalises back to `p`. */
  lemma NormalizeRaw(p: Profile)
    ensures Normalize(Raw(p)) == p
  {
  }

  /** Each field is defaulted on its own: dropping one field of a full
      body changes that field to its default and no other. */
  lemma NormalizeFieldDefaults(p: Profile)
    ensures Normalize(ProfileBody(Some(RawProfile(None, Some(p.email), Some(p.saldo), Some(p.isStaff))))) == p.(name := "")
    ensures Normalize(ProfileBody(Some(RawProfile(Some(p.name), None, Some(p.saldo), Some(p.isStaff))))) == p.(email := "")
    ensures Normalize(ProfileBody(Some(RawProfile(Some(p.name), Some(p.email), None, Some(p.isStaff))))) == p.(saldo := 0)
    ensures Normalize(ProfileBody(Some(RawProfile(Some(p.name), Some(p.email), Some(p.saldo), None)))) == p.(isStaff := false)
  {
  }

  /** `is_staff.toString()`, the text persisted under "is_staff". */
  function StaffFlag(isStaff: bool): (text: string)
    ensures text == "true" || text == "false"
    ensures text == "true" <==> isStaff
  {
    if isStaff then "true" else "false"
  }
}

=== FILE: refresh.dfy ===
/** The single-flight refresh coordinator (`AuthManager.refreshToken` and
    `performRefresh`). A refresh is split at its await point into
    `RequestRefresh` (the synchronous part: join the pending handle, or
    create it and send the request) and `SettleRefresh` (the refresh reply
    arrives, storage and events are updated, the handle is cleared). */
module Refresh {
  import opened Wrappers
  import opened JsString
  import opened Http
  import opened Session

  /** What `performRefresh` makes of the refresh endpoint's reply. */
  datatype Verdict = Renewed(token: string) | Rejected | Transient

  /** The new token `data.data?.access || data.access` of a 2xx body. */
  function NewAccess(body: AuthBody): Option<string> {
    FirstTruthy(NestedAccess(body), body.access)
  }

  /** Only a 2xx reply carrying a non-empty token renews; only 401 and 403
      reject; a throw, any other status, or a 2xx without a token is
      transient. */
  function Classify(reply: Reply<AuthBody>): (v: Verdict)
    ensures v.Renewed? <==> reply.Responded? && Ok(reply.status) && Truthy(NewAccess(reply.body))
    ensures v.Renewed? ==> v.token != ""
    ensures v.Renewed? ==> Some(v.token) == NestedAccess(reply.body) || Some(v.token) == reply.body.access
    ensures v.Renewed? && Truthy(NestedAccess(reply.body)) ==> Some(v.token) == NestedAccess(reply.body)
    ensures v.Rejected? <==> reply.Responded? && AuthRejected(reply.status)
  {
    match reply
    case Threw => Transient
    case Responded(status, body) =>
      if Ok(status) then
        if Truthy(NewAccess(body)) then Renewed(NewAccess(body).value) else Transient
      else if AuthRejected(status) then Rejected
      else Transient
  }

  /** How a caller of `refreshToken` leaves its synchronous part: waiting on
      the shared handle, or already holding `null` because no token was
      stored (that promise settles before any other task can run). */
  datatype Arrival = Awaiting | ResolvedNull

  /** The synchronous part of `refreshToken`: a caller arriving while a
      refresh is pending joins it; otherwise the handle is created and, if a
      token is stored, exactly one refresh request is sent, whose headers
      are the third component. Its bearer is the stored access token: the
      refresh token is never sent. Storage, events and navigation are never
      touched here. */
  function RequestRefresh(s: State): (r: (State, Arrival, Option<Headers>))
    ensures r.0.refreshCalls == s.refreshCalls + (if !s.inFlight && HasToken(s) then 1 else 0)
    ensures r.0.inFlight <==> s.inFlight || HasToken(s)
    ensures r.1 == ResolvedNull <==> !s.inFlight && !HasToken(s)
    ensures r.0.store == s.store && r.0.events == s.events && r.0.target == s.target
    ensures r.2.Some? <==> r.0.refreshCalls == s.refreshCalls + 1
    ensures r.2.Some? ==> r.2.value == map[AuthorizationHeader := "Bearer " + Get(s.store, Token).value, ContentTypeHeader := JsonContentType]
  {
    if s.inFlight then (s, Awaiting, None)
    else if !HasToken(s) then (s, ResolvedNull, None)
    else
      var token := Get(s.store, Token).value;
      var request := map[AuthorizationHeader := "Bearer " + token, ContentTypeHeader := JsonContentType];
      (s.(inFlight := true, refreshCalls := s.refreshCalls + 1), Awaiting, Some(request))
  }

  /** What the refresh request carries does not depend on the stored
      refresh token: two sessions that differ only in `refresh_token` send
      the same request, or none. */
  lemma RefreshRequestIgnoresRefreshToken(s: State, t: State)
    requires s.inFlight == t.inFlight
    requires OthersUnchanged(s.store, t.store, {RefreshToken})
    ensures RequestRefresh(s).2 == RequestRefresh(t).2
  {
    assert Get(s.store, Token) == Get(t.store, Token);
  }

  /** The rest of `performRefresh` once the refresh reply arrives, followed
      by `refreshToken` clearing the handle. The result is what every
      waiting caller receives. */
  function SettleRefresh(s: State, reply: Reply<AuthBody>): (r: (State, Option<string>))
    ensures !r.0.inFlight && r.0.refreshCalls == s.refreshCalls
    ensures Classify(reply).Renewed? ==>
      var t := Classify(reply).token;
      && r.1 == Some(t)
      && Get(r.0.store, Token) == Some(t)
      && OthersUnchanged(s.store, r.0.store, {Token})
      && r.0.events == s.events + [TokenRefreshed(t)]
      && r.0.target == s.target
    ensures Classify(reply).Rejected? ==>
      && r.1 == None
      && Get(r.0.store, Token) == None
      && OthersUnchanged(s.store, r.0.store, {Token})
      && r.0.events == s.events + [UserLoggedOut]
      && r.0.target == Some(LoginPath)
    ensures Classify(reply).Transient? ==>
      r == (s.(inFlight := false), None)
  {
    var cleared := s.(inFlight := false);
    match Classify(reply)
    case Renewed(t) =>
      (cleared.(store := s.store[Token := t], events := s.events + [TokenRefreshed(t)]), Some(t))
    case Rejected => (Logout(cleared), None)
    case Transient => (cleared, None)
  }

  /** A lone `refreshToken` call from start to finish. */
  function RefreshAlone(s: State, reply: Reply<AuthBody>): (r: (State, Option<string>))
    ensures !r.0.inFlight
    ensures r.0.refreshCalls == s.refreshCalls + (if !s.inFlight && HasToken(s) then 1 else 0)
    ensures r.1.Some? ==> r.1.value != "" && Get(r.0.store, Token) == r.1
    ensures r.1.None? ==> r.0.events == s.events || r.0.events == s.events + [UserLoggedOut]
  {
    var (s1, arrival, _) := RequestRefresh(s);
    if arrival == ResolvedNull then (s1, None) else SettleRefresh(s1, reply)
  }

  /** Whatever the outcome, the handle is cleared afterwards, so the next
      call starts a fresh attempt. */
  lemma HandleClearedAfterRefresh(s: State, reply: Reply<AuthBody>)
    ensures !RefreshAlone(s, reply).0.inFlight
  {
  }

  /** With no stored token, a refresh returns null without a network
      request and without touching storage, events or navigation. */
  lemma RefreshWithoutToken(s: State, reply: Reply<AuthBody>)
    requires !s.inFlight && !HasToken(s)
    ensures RefreshAlone(s, reply) == (s, None)
  {
  }

  /** A refresh that renews writes exactly the new token, records one
      `tokenRefreshed` carrying it, sends one request, and returns it. */
  lemma RefreshRenews(s: State, reply: Reply<AuthBody>)
    requires !s.inFlight && HasToken(s)
    requires reply.Responded? && Ok(reply.status) && Truthy(NewAccess(reply.body))
    ensures var (s', r) := RefreshAlone(s, reply);
      && r == NewAccess(reply.body)
      && Get(s'.store, Token) == r
      && OthersUnchanged(s.store, s'.store, {Token})
      && s'.events == s.events + [TokenRefreshed(r.value)]
      && s'.refreshCalls == s.refreshCalls + 1
  {
  }

  /** A transient failure returns null and changes nothing but the
      request counter. */
  lemma RefreshTransient(s: State, reply: Reply<AuthBody>)
    requires !s.inFlight && HasToken(s)
    requires Classify(reply).Transient?
    ensures RefreshAlone(s, reply) == (s.(refreshCalls := s.refreshCalls + 1), None)
  {
  }

  /** After a rejected refresh no token is stored, so the next refresh
      makes no network request. */
  lemma RejectedRefreshEndsRefreshing(s: State, reply: Reply<AuthBody>, next: Reply<AuthBody>)
    requires Classify(reply).Rejected?
    ensures var (s', _) := RefreshAlone(s, reply);
      RefreshAlone(s', next) == (s', None)
  {
  }
}

=== FILE: register.dfy ===
/** The registration form: the password checks shown live under the field,
    the submit guard, and what a submit writes to storage. */
module Register {
  import opened Wrappers
  import opened JsString
  import opened Http
  import opened Session

  const RegisterError := "Terjadi kesalahan saat mendaftar"
  const GenericError := "Terjadi kesalahan. Silakan coba lagi."

  /** Whether `s` contains a character in the range `lo`..`hi`. */
  function ContainsInRange(s: string, lo: char, hi: char): (b: bool)
    ensures b <==> exists i :: 0 <= i < |s| && lo <= s[i] <= hi
  {
    if s == [] then false
    else if lo <= s[|s| - 1] <= hi then true
    else
      var b := ContainsInRange(s[..|s| - 1], lo, hi);
      assert forall i :: 0 <= i < |s| - 1 ==> s[..|s| - 1][i] == s[i];
      b
  }

  /** `passwordValidation`: length at least 8 (in UTF-16 code units), and
      at least one ASCII upper-case letter, lower-case letter and digit. */
  datatype PasswordChecks = PasswordChecks(minLength: bool, hasUppercase: bool, hasLowercase: bool, hasNumber: bool)

  function CheckPassword(password: string): (c: PasswordChecks)
    ensures c.minLength <==> Utf16Length(password) >= 8
    ensures c.hasUppercase <==> exists i :: 0 <= i < |password| && 'A' <= password[i] <= 'Z'
    ensures c.hasLowercase <==> exists i :: 0 <= i < |password| && 'a' <= password[i] <= 'z'
    ensures c.hasNumber <==> exists i :: 0 <= i < |password| && '0' <= password[i] <= '9'
  {
    PasswordChecks(
      Utf16Length(password) >= 8,
      ContainsInRange(password, 'A', 'Z'),
      ContainsInRange(password, 'a', 'z'),
      ContainsInRange(password, '0', '9'))
  }

  /** `isPasswordValid`: every check passes. */
  function IsPasswordValid(password: string): (valid: bool)
    ensures valid ==> Utf16Length(password) >= 8 && |password| >= 4
    ensures valid ==> exists i :: 0 <= i < |password| && '0' <= password[i] <= '9'
  {
    var c := CheckPassword(password);
    c.minLength && c.hasUppercase && c.hasLowercase && c.hasNumber
  }

  /** `doPasswordsMatch`: equal, and the confirmation is not empty. */
  function DoPasswordsMatch(password: string, confirm: string): (matched: bool)
    ensures confirm == "" || password == "" ==> !matched
    ensures matched ==> IsPasswordValid(confirm) == IsPasswordValid(password)
  {
    password == confirm && confirm != ""
  }

  /** Which field is the password and which the confirmation does not
      matter, and a non-empty password always matches itself. */
  lemma PasswordsMatchSymmetric(password: string, confirm: string)
    ensures DoPasswordsMatch(password, confirm) == DoPasswordsMatch(confirm, password)
    ensures DoPasswordsMatch(password, password) <==> password != ""
  {
  }

  /** A password is valid exactly when it is at least 8 code units long
      and has an ASCII upper-case letter, lower-case letter and digit. */
  lemma PasswordValidIff(password: string)
    ensures IsPasswordValid(password) <==>
      && Utf16Length(password) >= 8
      && (exists i :: 0 <= i < |password| && 'A' <= password[i] <= 'Z')
      && (exists i :: 0 <= i < |password| && 'a' <= password[i] <= 'z')
      && (exists i :: 0 <= i < |password| && '0' <= password[i] <= '9')
  {
  }

  /** Seven characters are never enough, whatever they are, as long as
      they all lie in the Basic Multilingual Plane. */
  lemma SevenBmpCharactersTooShort(password: string)
    requires |password| == 7 && forall i :: 0 <= i < |password| ==> password[i] as int <= 0xFFFF
    ensures !IsPasswordValid(password)
  {
  }

  /** The length check counts UTF-16 code units: a password of six
      characters, three of them outside the Basic Multilingual Plane, passes
      it and is valid. */
  lemma AstralCharactersCountTwice()
    ensures |"Aa1\U{1F600}\U{1F600}\U{1F600}"| == 6
    ensures IsPasswordValid("Aa1\U{1F600}\U{1F600}\U{1F600}")
  {
    var p := "Aa1\U{1F600}\U{1F600}\U{1F600}";
    var bmp, astral := "Aa1", "\U{1F600}\U{1F600}\U{1F600}";
    assert p == bmp + astral;
    Utf16LengthAppend(bmp, astral);
    assert Utf16Length(p) == 9;
    assert p[0] == 'A' && p[1] == 'a' && p[2] == '1';
  }

  datatype Outcome = Outcome(session: State, error: string, requested: bool)

  /** `handleSubmit`: nothing at all unless the password is valid and
      confirmed; otherwise one request, and on 2xx both tokens are cleared
      before the new ones (if any) are stored. `error` is the error shown
      before the submit. */
  function RegisterSubmit(s: State, password: string, confirm: string, error: string, reply: Reply<AuthBody>): (o: Outcome)
    ensures o.requested <==> IsPasswordValid(password) && DoPasswordsMatch(password, confirm)
    ensures !o.requested ==> o == Outcome(s, error, false)
    ensures o.session.events == s.events && o.session.inFlight == s.inFlight && o.session.refreshCalls == s.refreshCalls
    ensures o.requested && reply.Threw? ==> o.session == s && o.error == GenericError
    ensures o.requested && reply.Responded? && !Ok(reply.status) ==>
      o.session == s && o.error == OrDefault(reply.body.message, RegisterError)
    ensures o.requested && reply.Responded? && Ok(reply.status) ==>
      && o.error == error
      && Get(o.session.store, IsStaff) == Get(s.store, IsStaff)
      && (Truthy(NestedAccess(reply.body)) ==>
            && Get(o.session.store, Token) == NestedAccess(reply.body)
            && Get(o.session.store, RefreshToken) == (if Truthy(NestedRefresh(reply.body)) then NestedRefresh(reply.body) else None)
            && o.session.target == Some(HomePath))
      && (!Truthy(NestedAccess(reply.body)) ==>
            && Get(o.session.store, Token) == None
            && Get(o.session.store, RefreshToken) == None
            && o.session.target == Some(LoginPath))
  {
    if !(IsPasswordValid(password) && DoPasswordsMatch(password, confirm)) then Outcome(s, error, false)
    else
      match reply
      case Threw => Outcome(s, GenericError, true)
      case Responded(status, body) =>
        if !Ok(status) then Outcome(s, OrDefault(body.message, RegisterError), true)
        else
          var cleared := s.store - {Token, RefreshToken};
          if Truthy(NestedAccess(body)) then
            var withToken := cleared[Token := NestedAccess(body).value];
            var store := if Truthy(NestedRefresh(body)) then withToken[RefreshToken := NestedRefresh(body).value] else withToken;
            Outcome(s.(store := store, target := Some(HomePath)), error, true)
          else
            Outcome(s.(store := cleared, target := Some(LoginPath)), error, true)
  }
}

=== FILE: session.dfy ===
/** The session state every step of the model reads and writes: the
    browser's persisted slots, the shared refresh handle, the window events
    dispatched so far, the last navigation requested, and how many refresh
    requests went to the network. */
module Session {
  import opened Wrappers
  import opened JsString

  /** The localStorage keys in use: "token", "refresh_token", "is_staff". */
  datatype Slot = Token | RefreshToken | IsStaff

  type Store = map<Slot, string>

  /** `localStorage.getItem`. */
  function Get(store: Store, slot: Slot): Option<string> {
    if slot in store then Some(store[slot]) else None
  }

  /** The window events: `tokenRefreshed` (carrying the new token) and
      `userLoggedOut`. */
  datatype Event = TokenRefreshed(token: string) | UserLoggedOut

  /** `inFlight` stands for `AuthManager.refreshPromise` being non-null;
      `target` for the last `window.location.href` / `router.push` value. */
  datatype State = State(
    store: Store,
    inFlight: bool,
    events: seq<Event>,
    target: Option<string>,
    refreshCalls: nat)

  const LoginPath := "/login"
  const HomePath := "/"

  /** The stored token is a non-empty string (`if (token)`). */
  predicate HasToken(s: State) {
    Truthy(Get(s.store, Token))
  }

  /** Every slot other than `changed` holds what it held before. */
  predicate OthersUnchanged(before: Store, after: Store, changed: set<Slot>) {
    forall slot :: slot !in changed ==> Get(after, slot) == Get(before, slot)
  }

  /** `AuthManager.logout`: removes the token and nothing else from
      storage, dispatches `userLoggedOut`, and navigates to the login page. */
  function Logout(s: State): (s': State)
    ensures Get(s'.store, Token) == None && !HasToken(s')
    ensures OthersUnchanged(s.store, s'.store, {Token})
    ensures s'.events == s.events + [UserLoggedOut]
    ensures s'.target == Some(LoginPath)
    ensures s'.inFlight == s.inFlight && s'.refreshCalls == s.refreshCalls
  {
    s.(store := s.store - {Token}, events := s.events + [UserLoggedOut], target := Some(LoginPath))
  }

  /** Logging out twice leaves storage as logging out once; only the event
      log and nothing else records the second call. */
  lemma LogoutStorageIdempotent(s: State)
    ensures Logout(Logout(s)).store == Logout(s).store
    ensures Logout(Logout(s)).target == Logout(s).target
    ensures |Logout(Logout(s)).events| == |s.events| + 2
  {
  }
}

=== FILE: toast.dfy ===
/** The toast queue of `ToastProvider`: `showToast` appends, `removeToast`
    filters by id. Ids come from `Math.random` and are a parameter here;
    nothing makes them unique. */
module Toasts {

  datatype ToastKind = Info | Success | Warning | Error

  datatype Toast = Toast(id: string, message: string, kind: ToastKind)

  /** `showToast(message, type = 'info')` with the freshly drawn `id`. */
  function ShowToast(queue: seq<Toast>, id: string, message: string, kind: ToastKind := Info): (q: seq<Toast>)
    ensures |q| == |queue| + 1 && q[..|queue|] == queue
    ensures q[|queue|] == Toast(id, message, kind)
  {
    queue + [Toast(id, message, kind)]
  }

  predicate HasId(queue: seq<Toast>, id: string) {
    exists i :: 0 <= i < |queue| && queue[i].id == id
  }

  /** `removeToast(id)`: keep exactly the entries with another id. */
  function RemoveToast(queue: seq<Toast>, id: string): (q: seq<Toast>)
    ensures forall t: Toast :: t in q <==> t in queue && t.id != id
    ensures |q| <= |queue|
  {
    if queue == [] then []
    else
      var rest := RemoveToast(queue[1..], id);
      assert forall t: Toast :: t in queue <==> t == queue[0] || t in queue[1..];
      if queue[0].id == id then rest else [queue[0]] + rest
  }

  /** Every entry with another id survives as often as it occurred, and no
      entry with the removed id is left. */
  lemma {:induction false} RemoveKeepsCounts(queue: seq<Toast>, id: string, t: Toast)
    ensures multiset(RemoveToast(queue, id))[t] == if t.id == id then 0 else multiset(queue)[t]
  {
    if queue != [] {
      assert queue == [queue[0]] + queue[1..];
      RemoveKeepsCounts(queue[1..], id, t);
    }
  }

  /** Removing an id that is not queued changes nothing. */
  lemma {:induction false} RemoveAbsentIsNoOp(queue: seq<Toast>, id: string)
    requires !HasId(queue, id)
    ensures RemoveToast(queue, id) == queue
  {
    if queue != [] {
      RemoveAbsentIsNoOp(queue[1..], id);
      assert queue[0].id != id;
      assert queue == [queue[0]] + queue[1..];
    }
  }

  /** Removal works entry by entry, so the survivors keep their order. */
  lemma {:induction false} RemoveDistributes(a: seq<Toast>, b: seq<Toast>, id: string)
    ensures RemoveToast(a + b, id) == RemoveToast(a, id) + RemoveToast(b, id)
  {
    if a != [] {
      assert (a + b)[1..] == a[1..] + b;
      RemoveDistributes(a[1..], b, id);
    } else {
      assert a + b == b;
    }
  }

  /** Removing twice is removing once. */
  lemma RemoveIdempotent(queue: seq<Toast>, id: string)
    ensures RemoveToast(RemoveToast(queue, id), id) == RemoveToast(queue, id)
  {
    var q := RemoveToast(queue, id);
    RemoveAbsentIsNoOp(q, id);
  }

  /** Removing a toast just shown, under an id not already queued, restores
      the queue. */
  lemma RemoveUndoesShow(queue: seq<Toast>, id: string, message: string, kind: ToastKind)
    requires !HasId(queue, id)
    ensures RemoveToast(ShowToast(queue, id, message, kind), id) == queue
  {
    RemoveDistributes(queue, [Toast(id, message, kind)], id);
    RemoveAbsentIsNoOp(queue, id);
    assert RemoveToast([Toast(id, message, kind)], id) == [];
    assert queue + [] == queue;
  }

  /** The background class of each kind. */
  function BgColor(kind: ToastKind): (c: string)
    ensures |c| > 3 && c[..3] == "bg-"
    ensures c == "bg-blue-600" <==> kind == Info
  {
    match kind
    case Info => "bg-blue-600"
    case Success => "bg-green-600"
    case Warning => "bg-yellow-600"
    case Error => "bg-red-600"
  }

  /** Each kind has its own colour, and the default kind is blue. */
  lemma BgColorDistinct(a: ToastKind, b: ToastKind, queue: seq<Toast>, id: string, message: string)
    ensures a != b ==> BgColor(a) != BgColor(b)
    ensures BgColor(ShowToast(queue, id, message)[|queue|].kind) == "bg-blue-600"
  {
  }
}

=== FILE: wrappers.dfy ===
/** The optional-value datatype the model uses for absent storage slots,
    absent JSON fields and absent navigation targets. */
module Wrappers {

  datatype Option<+T> = None | Some(value: T) {

    /** Returns the value held in Some, or `default` when None. */
    function GetOr(default: T): T {
      match this
      case Some(v) => v
      case None => default
    }
  }
}
